=== FILE: README.md ===
# Octree colour quantizer, modelled in Dafny

This project models the octree colour quantizer of `src/colorQuant`. A quantizer
owns a root node at depth 0 and a per-depth registry of nodes. `quantize` reads
an RGBA buffer four bytes at a time and inserts each pixel's colour into the
tree.

- **Navigation.** A node at depth `d` sends a colour to the child in slot
  `getColorIndexForDepth(colour, d + 1)`, a 3-bit selector made of one bit of
  each channel.
- **Leaves.** The first node created at `maxDepth` becomes a leaf. Every later
  colour that reaches that leaf is added to its sample count (`refCount`) and
  its colour sum (`value`).
- **Palette.** `palette` maps each leaf's key (`paletteIndex`) to its average
  colour. The key packs the selectors of planes 1..depth into a base-8 number.
  When two leaves share a key, the first leaf in `getLeaves` order wins.
- **Pruning.** `pruneLeaves` and `remove` fold children into their parent.
  `removeLeavesAt` prunes the nodes registered at one depth.

The modules follow the TypeScript files:

| module | models |
|---|---|
| `Color` (color.dfy) | the `RGB` record and channel-wise addition |
| `Utils` (utils.dfy) | `utils.ts`: the selector, the average and the palette key, with their bit-level characterisations |
| `OctreeNode` (octree_node.dfy) | `OctreeNode.ts`: an immutable `Node` datatype; every method returns the updated node |
| `Octree` (octree.dfy) | `Octree.ts`: the quantizer, with the registry as a sequence of child-slot paths per depth |
| `InsertOnly` (insert_only.dfy) | the shape that insertion alone keeps (`Shaped`), the leaf ("bucket") a colour lands in, and how one insertion changes the buckets and the leaves |
| `Pruning` (pruning.dfy) | which samples pruning keeps |
| `OctreeTheorems` (octree_theorems.dfy) | whole-quantizer results |

`Wrappers` and `Arith` are helper modules.

The whole-quantizer results in `OctreeTheorems`:

- For maxDepth ≥ 1, every pixel is counted exactly once.
- For maxDepth ≥ 1, the leaves are the distinct buckets of the pixels.
- Re-inserting a colour creates no node.
- For maxDepth 1..6, the palette's keys are exactly the pixels' keys, and each
  key maps to the average of its bucket.
- For any other maxDepth, the palette has at most the single key -1. At
  maxDepth 0 it is `{-1: black}` whatever the pixels.
- The registry is never filled, so `removeLeavesAt` never changes the tree.

Where the code disagrees with its tests or with what its names suggest, the
model follows the code:

- In the key, plane 1 is the least significant triplet: at depth 2 the key is
  `(index(2) << 3) | index(1)`. Plane 1 is the coarsest plane, yet it is not
  the most significant digit, so keys do not sort coarse-first
  (`Utils.PaletteIndexIsPlaneSum`).
- Outside depths 1..6 the key function does not fail. It returns -1
  (`Utils.PaletteIndexFromRGB`). As a result, for maxDepth ≥ 7 every leaf has
  key -1, and the palette collapses to at most one entry, the first leaf's average
  (`OctreeTheorems.PaletteWithoutKeys`).
- Nothing ever adds a node to `_levels`. The tests expect a filled registry
  after `quantize` (src/colorQuant/tests/Octree.test.ts:52 and 103), but no
  code path registers a node. On every quantizer built by the constructor and
  `quantize`, an accepted `removeLeavesAt` changes nothing
  (`OctreeTheorems.RemoveLeavesAtNoOp`). What it would do to registered nodes
  is stated separately (`Octree.RemoveLeavesAtPrunes`,
  `Octree.RemoveLeavesAtFrame`).
- `pruneLeaves` does not recurse. An internal child has no samples of its own,
  so pruning above the last internal level drops the samples below it
  (`Pruning.PruneShaped`, `Pruning.PruneDropsGrandchildren`). Conservation
  holds only when the pruned node's children are leaves.
- Navigation reads plane `depth + 1`, so for maxDepth ≤ 31 bit 7 of a
  channel never chooses a child. The shift count wraps at 32, so plane 32
  reads bit 7 again (`Utils.ColorIndexBits`,
  `OctreeTheorems.WrappedPlaneSplits`). Keys read the same planes 1..depth,
  which is why every pixel finds its palette entry.
- A quantizer of depth 0 has a root that is born a leaf holding one black
  sample. No pixel can go below it, so its palette is `{-1: black}` whatever it
  is fed (`OctreeTheorems.PaletteAtDepthZero`).

JavaScript details are modelled explicitly:

- `>>` takes its count modulo 32.
- `x & mask` with a one-bit mask is `(x / mask) % 2 == 1`.
- `dividedNumber || 1` replaces a count of 0 with 1.
- A `Uint8ClampedArray` element is a `Byte` (0..255).
- Colour sums are unbounded `nat`s.

## Model

| member | source | states |
|---|---|---|
| Color.AddBlack | src/colorQuant/OctreeNode.ts:47-51 | a zero colour sum is neutral for the accumulation `sum` performs |
| Utils.ColorIndexForDepth | src/colorQuant/utils.ts:8-23 | the selector is a 3-bit value 0..7 for every depth, including shift counts past 7 |
| Utils.ColorIndexBits | src/colorQuant/utils.ts:8-23 | for depth 0..7 the selector's bits 2, 1, 0 are bit 7-depth of red, green, blue; a depth whose shift count modulo 32 is 8..31 selects slot 0; depth d + 32 selects as depth d does |
| Utils.ColorIndexExamples | src/colorQuant/tests/utils.test.ts:11-22 | (1,0,0), (1,1,0), (1,1,1) at depth 7 give 4, 6, 7; (4,0,0), (4,4,0), (4,4,4) at depth 5 give 4, 6, 7 |
| Utils.NormalizeColor | src/colorQuant/utils.ts:25-33 | every channel of the result is sum/n rounded down and capped at 255, with n = 1 when the count is 0; the result is a byte colour |
| Utils.ChannelFloorCapped | src/colorQuant/utils.ts:29-31 | `min(floor(sum / n), 255)` is the rounded-down quotient capped at 255 |
| Utils.NormalizeColorZeroCount | src/colorQuant/utils.ts:26 | averaging over a count of 0 is averaging over 1 |
| Utils.NormalizeColorSingle | src/colorQuant/tests/OctreeNode.test.ts:159-162 | a byte colour averaged over one sample is itself |
| Utils.NormalizeColorRepeated | src/colorQuant/utils.ts:25-33 | n copies of a byte colour summed and averaged over n give the colour back |
| Utils.Planes | src/colorQuant/utils.ts:39-70 | position k of the plane sequence is the selector of plane k+1, and it has exactly `depth` entries |
| Utils.PaletteIndexFromRGB | src/colorQuant/utils.ts:39-70 | for depth 1..6 the key lies in [0, 8^depth); the key is -1 exactly when depth is outside 1..6 |
| Utils.ComputePaletteIndex | src/colorQuant/utils.ts:39-70 | the shift-and-or evaluation, deepest plane first, yields the key, and its lowest triplet is plane 1's selector |
| Utils.PaletteIndexIsPlaneSum | src/colorQuant/utils.ts:39-70 | the key equals the sum over k = 1..depth of selector(k) * 8^(k-1), an independent reference definition |
| Utils.PaletteIndexExtend | src/colorQuant/utils.ts:40-66 | key(depth+1) = selector(depth+1) * 8^depth + key(depth), so key(depth+1) mod 8^depth = key(depth) |
| Utils.PaletteIndexDigit | src/colorQuant/utils.ts:39-70 | base-8 digit k-1 of the key is the selector of plane k |
| Utils.PaletteIndexSameBucket | src/colorQuant/utils.ts:39-70 | two colours share a key exactly when they agree on the selectors of planes 1..depth |
| Utils.PaletteIndexAllOnes | src/colorQuant/tests/utils.test.ts:26-33 | white has key 8^depth - 1 at every depth 1..6 |
| Utils.PaletteIndexExample | src/colorQuant/tests/utils.test.ts:35-41 | (35,38,47) has key 12856 at depth 5 and 242232 at depth 6 |
| Utils.DigitsInjective | src/colorQuant/utils.ts:39-70 | equally long selector sequences with the same packed number are equal |
| Utils.DigitsDigitAt | src/colorQuant/utils.ts:39-70 | digit k of the packed number is entry k of the sequence |
| OctreeNode.NewNode | src/colorQuant/OctreeNode.ts:29-53 | fails exactly when depth is outside 0..maxDepth; a node at maxDepth is a leaf with one sample and the colour as its sum; any other node has no samples and a zero sum; the key is the colour's key at the node's depth; eight empty slots |
| OctreeNode.Count | src/colorQuant/OctreeNode.ts:63-65 | the count grows by exactly `num` and nothing else changes; a positive increment makes a leaf and a leaf stays a leaf |
| OctreeNode.Sum | src/colorQuant/OctreeNode.ts:67-73 | the colour sum grows by the colour, channel by channel, and nothing else changes; leafness is unchanged |
| OctreeNode.GetColor | src/colorQuant/OctreeNode.ts:75-81 | fails with `NotALeaf` exactly on a non-leaf, otherwise returns the average of the sum over the count |
| OctreeNode.HasChild | src/colorQuant/OctreeNode.ts:115-117 | true only for an index of an existing slot |
| OctreeNode.SetChild | src/colorQuant/OctreeNode.ts:108 | the slot holds the child, every other slot is unchanged, and a too-short slot list grows with empty slots |
| OctreeNode.Grow | src/colorQuant/OctreeNode.ts:99-109 | the branch built below an empty slot has the given depth, carries the colour's key at that depth, and is a leaf exactly at maxDepth |
| OctreeNode.CreateChildRecursive | src/colorQuant/OctreeNode.ts:84-113 | insertion changes only the slot of the next plane; the node's own fields stay |
| OctreeNode.IsLeaf | src/colorQuant/OctreeNode.ts:55-57 | a node is a leaf exactly when it carries samples (a definition; the contracts above and below state what follows from it) |
| OctreeNode.GetLeaves | src/colorQuant/OctreeNode.ts:119-137 | every element is a leaf, and a leaf's leaves are just itself |
| OctreeNode.TallyIsPresent | src/colorQuant/OctreeNode.ts:143-151 | the loop's running count, colour sum and number of children are the sample count, colour sum and length of the children present in slot order |
| OctreeNode.TallyLeaf | src/colorQuant/OctreeNode.ts:143-151 | the gathered count is positive exactly when some scanned child is a leaf |
| OctreeNode.TallyPresent | src/colorQuant/OctreeNode.ts:143-151 | the returned number is the number of occupied slots |
| OctreeNode.PruneLeaves | src/colorQuant/OctreeNode.ts:139-155 | for any children: the node gains exactly the counts and the colour sums of the children present, the children are cleared, depth and key stay, the node is a leaf afterwards exactly when it or one of its children was, and it returns the number of occupied slots |
| OctreeNode.Remove | src/colorQuant/OctreeNode.ts:157-171 | an empty or missing slot changes nothing; otherwise only that slot is emptied, and the parent gains exactly the pruned child's count and colour sum: the child's own plus those of its children present |
| OctreeNode.SamplesConcat | src/colorQuant/OctreeNode.ts:119-137 | the samples of two leaf lists joined are the sums of their samples |
| InsertOnly.ReplaceSlotLeaves | src/colorQuant/OctreeNode.ts:125-133 | the leaves of a node are those of the slots before, in and after one slot, in slot order |
| InsertOnly.KeyIsPathKey | src/colorQuant/OctreeNode.ts:52 | a colour's key at a depth is the packed number of its planes up to that depth |
| InsertOnly.ShapedChild | src/colorQuant/OctreeNode.ts:99-109 | in an insert-only tree a child sits one level deeper, keeps the shape along the extended path, and is a leaf exactly at maxDepth |
| InsertOnly.GrowShaped | src/colorQuant/OctreeNode.ts:99-109 | a grown branch is in insert-only shape along the colour's planes |
| InsertOnly.GrowStep | src/colorQuant/OctreeNode.ts:99-109 | a grown node holds exactly one child, in the colour's next-plane slot, or is a one-sample leaf at maxDepth |
| InsertOnly.GrowBucket | src/colorQuant/OctreeNode.ts:99-109 | a colour finds a leaf in a grown branch exactly when it agrees with the grown colour on every deeper plane |
| InsertOnly.GrowLeaves | src/colorQuant/OctreeNode.ts:99-109 | a grown branch has exactly one leaf, holding one sample of the colour |
| InsertOnly.InsertShaped | src/colorQuant/OctreeNode.ts:84-113 | insertion keeps the insert-only shape |
| InsertOnly.InsertBucket | src/colorQuant/OctreeNode.ts:84-113 | after one insertion, the colours agreeing with it on every plane below find their leaf with it merged in (or a new leaf holding it); every other colour finds the leaf it found before |
| InsertOnly.SettleCount | src/colorQuant/OctreeNode.ts:91-93 | the settled leaf has one more sample and the colour added to its sum |
| InsertOnly.InsertBucketCount | src/colorQuant/OctreeNode.ts:84-113 | one insertion adds one sample to exactly the inserted colour's bucket |
| InsertOnly.InsertBucketSum | src/colorQuant/OctreeNode.ts:84-113 | one insertion adds its colour to exactly that bucket's sum |
| InsertOnly.InsertLeaves | src/colorQuant/OctreeNode.ts:84-113 | one insertion adds one sample and its colour to the leaves, and adds a leaf exactly when the colour had no bucket |
| InsertOnly.BucketInLeaves | src/colorQuant/OctreeNode.ts:119-137 | the leaf a colour lands in is among the leaves |
| InsertOnly.BucketKey | src/colorQuant/OctreeNode.ts:52 | the leaf a colour lands in sits at maxDepth and carries that colour's key |
| InsertOnly.LeafKeys | src/colorQuant/OctreeNode.ts:52 | every leaf sits at maxDepth; its key begins with the path to any node above it, or is -1 where there are no keys |
| InsertOnly.LeafKeysDistinct | src/colorQuant/OctreeNode.ts:119-137 | with keys (maxDepth 1..6), no two leaves carry the same key |
| Pruning.TallyCountOfLeafChildren | src/colorQuant/OctreeNode.ts:143-151 | when every child is a leaf, the gathered count is the leaves' sample count |
| Pruning.TallySumOfLeafChildren | src/colorQuant/OctreeNode.ts:143-151 | when every child is a leaf, the gathered sum is the leaves' colour sum |
| Pruning.PruneLeafChildrenCount | src/colorQuant/OctreeNode.ts:139-155 | pruning a node whose children are all leaves takes in every sample below it |
| Pruning.PruneLeafChildrenSum | src/colorQuant/OctreeNode.ts:139-155 | pruning it with a zero sum takes in their colour sum |
| Pruning.PruneEmptyChildren | src/colorQuant/OctreeNode.ts:139-155 | pruning a node whose children hold no samples leaves its count and sum as they were |
| Pruning.PruneShaped | src/colorQuant/OctreeNode.ts:139-155 | in an insert-only tree pruning keeps every sample below the node exactly when the node's children are leaves, and keeps none otherwise |
| Pruning.PruneDropsGrandchildren | src/colorQuant/OctreeNode.ts:139-155 | pruning the root of a two-level branch holding one sample leaves no sample and no leaf |
| Pruning.RemoveFromEmpty | src/colorQuant/OctreeNode.ts:157-171 | removing a child from a node without samples leaves the node with what pruning the child gathered |
| Pruning.RemoveShapedCount | src/colorQuant/OctreeNode.ts:157-171 | removing a child of an internal insert-only node gives it all the child's samples when the child's children are leaves, none otherwise |
| Pruning.RemoveShapedSum | src/colorQuant/OctreeNode.ts:157-171 | the same for the colour sum |
| Octree.NewQuantizer | src/colorQuant/Octree.ts:12-23 | succeeds exactly for 0 <= maxDepth < 2^32 - 1; -1 fails in the root's constructor, and a depth below -1 or from 2^32 - 1 up fails in the registry allocation, whose length must be an array length; otherwise maxDepth+1 empty registry entries and a black, unkeyed, eight-slot root at depth 0 that is a leaf exactly when maxDepth is 0 |
| Octree.Pixels | src/colorQuant/Octree.ts:29-39 | one byte colour per four bytes |
| Octree.DefaultQuantizer | src/colorQuant/tests/Octree.test.ts:33-37 | the default constructor succeeds with six registry entries |
| Octree.InsertAll | src/colorQuant/Octree.ts:29-39 | the pixels are inserted in order below the root; the root keeps its depth, maxDepth and key, and no pixels leave it as it was |
| Octree.Quantize | src/colorQuant/Octree.ts:25-39 | the loop inserts the pixels in buffer order and leaves the registry and depth alone |
| Octree.Leaves | src/colorQuant/Octree.ts:41-43 | every element is a leaf, and a leaf root is its own only leaf |
| Octree.GetNodesByLevel | src/colorQuant/Octree.ts:45-47 | the registry entry for a depth that has one, none otherwise |
| Octree.PruneAt | src/colorQuant/Octree.ts:56-60 | the node found along the path is replaced by its pruned self; a path that names no node changes nothing; the root keeps its depth and key |
| Octree.PruneAtFrame | src/colorQuant/Octree.ts:56-60 | every node on a path apart from the pruned one is reached unchanged |
| Octree.PruneEach | src/colorQuant/Octree.ts:56-60 | an empty registry entry prunes nothing; the root keeps its depth and key |
| Octree.PruneEachFrame | src/colorQuant/Octree.ts:56-60 | a node apart from every registered path is unchanged after all of them are pruned |
| Octree.PruneEachPrunes | src/colorQuant/Octree.ts:56-60 | with registered paths pairwise apart, each registered node ends up pruned exactly once, and a path naming no node still names none |
| Octree.RemoveLeavesAtPrunes | src/colorQuant/Octree.ts:55-60 | an accepted call replaces each node registered at the depth by its pruned self, when the registered paths are pairwise apart |
| Octree.RemoveLeavesAtFrame | src/colorQuant/Octree.ts:55-60 | an accepted call leaves every node apart from all registered paths unchanged |
| Octree.RemoveLeavesAt | src/colorQuant/Octree.ts:50-63 | fails exactly when depth < 2 or depth >= maxDepth; otherwise the entry one level deeper is emptied, the rest of the registry stays, and an empty entry leaves the tree unchanged |
| Octree.LeafColor | src/colorQuant/Octree.ts:70 | the colour `getColor` returns for a leaf |
| Octree.PaletteOf | src/colorQuant/Octree.ts:65-75 | a key is in the palette exactly when some leaf carries it |
| Octree.Palette | src/colorQuant/Octree.ts:65-75 | the same for the quantizer's leaves |
| OctreeTheorems.NewQuantizerReachable | src/colorQuant/Octree.ts:12-23 | a constructed quantizer has an empty registry and a root in insert-only shape |
| OctreeTheorems.InsertAtMaxDepth | src/colorQuant/OctreeNode.ts:98-111 | inserting below a node at maxDepth changes nothing |
| OctreeTheorems.InsertAllShaped | src/colorQuant/Octree.ts:29-39 | inserting any colours keeps the root in insert-only shape |
| OctreeTheorems.QuantizeReachable | src/colorQuant/Octree.ts:25-39 | `quantize` keeps a quantizer reachable: registry empty, tree in insert-only shape |
| OctreeTheorems.RemoveLeavesAtNoOp | src/colorQuant/Octree.ts:50-63 | on a reachable quantizer an accepted `removeLeavesAt` returns the quantizer unchanged |
| OctreeTheorems.ReinsertKeepsShape | src/colorQuant/tests/OctreeNode.test.ts:78-89 | inserting a colour whose leaf exists creates no node: the tree keeps its shape |
| OctreeTheorems.InsertAllCount | src/colorQuant/Octree.ts:29-39 | each inserted pixel adds exactly one sample to the leaves |
| OctreeTheorems.InsertAllSum | src/colorQuant/Octree.ts:29-39 | the leaves' colour sum grows by the pixels' colour sum |
| OctreeTheorems.FreshRoot | src/colorQuant/Octree.ts:22 | a fresh root of depth 1 or more holds no leaf and no bucket |
| OctreeTheorems.QuantizeConserves | src/colorQuant/tests/Octree.test.ts:64-70 | after `quantize` on a fresh quantizer of depth 1 or more, the leaves hold one sample per pixel and the pixels' colour sum |
| OctreeTheorems.AgreePlanes | src/colorQuant/OctreeNode.ts:85 | two colours take the same path from the root exactly when their planes up to maxDepth are equal |
| OctreeTheorems.BucketsMember | src/colorQuant/OctreeNode.ts:84-113 | a bucket is among the pixels' buckets exactly when some pixel shares it |
| OctreeTheorems.InsertAllBucketCount | src/colorQuant/Octree.ts:29-39 | a colour's bucket gains one sample per pixel sharing it |
| OctreeTheorems.InsertAllBucketSum | src/colorQuant/Octree.ts:29-39 | and the colours of exactly those pixels |
| OctreeTheorems.InsertAllBucketPresent | src/colorQuant/Octree.ts:29-39 | a colour has a bucket afterwards exactly when it had one before or some pixel shares it |
| OctreeTheorems.LeafPerBucket | src/colorQuant/tests/Octree.test.ts:39-45 | a fresh quantizer fed pixels has exactly one leaf per distinct bucket |
| OctreeTheorems.PixelLeaf | src/colorQuant/OctreeNode.ts:84-113 | each pixel's leaf is among the leaves, at maxDepth, carrying the pixel's key and exactly the samples and colours of the pixels sharing its bucket |
| OctreeTheorems.KeyNotEarlier | src/colorQuant/Octree.ts:68-72 | a key no earlier leaf carries is not yet in the palette |
| OctreeTheorems.PaletteFirstWins | src/colorQuant/Octree.ts:68-72 | each key maps to the colour of the first leaf carrying it |
| OctreeTheorems.PaletteSize | src/colorQuant/Octree.ts:65-75 | leaves with distinct keys give one palette entry each |
| OctreeTheorems.PalettePixel | src/colorQuant/tests/Octree.test.ts:131-155 | with depth 1..6 every pixel's key is in the palette and maps to the average of the pixels sharing its bucket |
| OctreeTheorems.KeyIsBucket | src/colorQuant/utils.ts:39-70 | with keys, colours share a key exactly when they share a bucket |
| OctreeTheorems.PixelKeysMember | src/colorQuant/utils.ts:39-70 | a colour's key is among the pixels' keys exactly when its bucket is among their buckets |
| OctreeTheorems.KeyPerBucket | src/colorQuant/utils.ts:39-70 | there are as many distinct pixel keys as distinct buckets |
| OctreeTheorems.PixelKeysOf | src/colorQuant/Octree.ts:29-39 | the pixel keys are exactly the keys of the pixels |
| OctreeTheorems.PaletteDomain | src/colorQuant/Octree.ts:65-75 | with depth 1..6 the palette's keys are exactly the pixels' keys, one entry per distinct bucket |
| OctreeTheorems.PaletteWithoutKeys | src/colorQuant/utils.ts:67-69 | at a depth without keys every leaf carries -1, so the palette has at most that key |
| OctreeTheorems.WrappedPlaneSplits | src/colorQuant/utils.ts:8-23 | at maxDepth 32, plane 32 reads bit 7 again: (128,0,0) selects slot 4 there, so it and black fall in different buckets and get two leaves |
| OctreeTheorems.PaletteAtDepthZero | src/colorQuant/Octree.ts:22 | with depth 0 no pixel changes the tree and the palette is black under -1 |
| OctreeTheorems.SinglePixelPalette | src/colorQuant/Octree.ts:65-75 | one byte-colour pixel gives the palette mapping its key to that colour |
| OctreeTheorems.QuantizePalette | src/colorQuant/tests/Octree.test.ts:131-155 | end to end, from the constructor through `quantize` to `palette`: keys are exactly the pixels' keys, each mapping to the average of its bucket |
| OctreeTheorems.InsertTwice | src/colorQuant/tests/OctreeNode.test.ts:78-89 | inserting one colour twice gives one leaf with two samples and twice the colour |

## Left out

- `getChildWithDepth` (src/colorQuant/OctreeNode.ts:173-201): marked debug-only, and its loop reads planes from the node's own depth, unlike insertion.
- Image decoding and encoding, file I/O and `console.log` in the tests: external library code and I/O.
- The `Color` class (src/colorQuant/Color.ts:7-17): never used; only the `RGB` record is modelled.
- The `_pixels` field (src/colorQuant/Octree.ts:15): set to an empty array and never read.
- Test assertions written for an older indexing scheme and a filled registry contradict the code and are not stated: the root→[0]→[6] path, `value` kept after `pruneLeaves`, non-empty `_levels`, and the 7-leaf and depth-4 results after `removeLeavesAt`.
- `remove` finds its child by reference identity (`indexOf`). The model names the child by slot index.
- The registry holds nodes by reference. The model holds the child-slot path to each node, so a registered node is the one found along its path.
- `palette` returns a `Map` that remembers insertion order. The model returns a `map<int, RGB>`. Which leaf wins a key is still modelled.
- Registered paths that overlap (one a prefix of another) name nested nodes; `Octree.PruneEachPrunes` states the effect only for paths pairwise apart, as distinct nodes of one depth are.
- The `if (!this.children)` guards (src/colorQuant/OctreeNode.ts:140, 158) can never fire, because `children` is always an array.
- Octree.Quantize: requires a buffer length that is a multiple of 4. With a trailing partial pixel `createInnerNodes` reads past the end, and the undefined channels make the sums NaN.
- Octree.Pixels: requires the same multiple of 4, for the same reason.
- `count(num)` with a negative or fractional `num`, and non-integer depths: callers only pass `1` and integer depths, so counts are `nat` and depths are `int`.
- `Uint8ClampedArray` clamping on write: pixels are modelled as bytes already in 0..255.

=== FILE: arith.dfy ===
/** Integer division facts the bit-plane proofs rely on. */
module Arith {
  lemma DivMod(a: int, d: int)
    requires d > 0
    ensures a == (a / d) * d + a % d
    ensures 0 <= a % d < d
  {
  }

  lemma MulMono(x: int, y: int, n: int)
    requires x <= y && n >= 0
    ensures x * n <= y * n
  {
    assert y * n - x * n == (y - x) * n;
  }

  lemma DivUnique(a: int, d: int, q: int, r: int)
    requires d > 0
    requires 0 <= r < d
    requires a == q * d + r
    ensures a / d == q
    ensures a % d == r
  {
    DivMod(a, d);
    var q0 := a / d;
    var r0 := a % d;
    assert (q - q0) * d == r0 - r;
    if q > q0 {
      MulMono(1, q - q0, d);
      assert false;
    } else if q < q0 {
      MulMono(1, q0 - q, d);
      assert false;
    }
  }

  lemma FloorBounds(a: nat, n: nat)
    requires n > 0
    ensures (a / n) * n <= a < (a / n + 1) * n
  {
    DivMod(a, n);
  }

  lemma DivDiv(a: nat, b: nat, c: nat)
    requires b > 0 && c > 0
    ensures a / (b * c) == (a / b) / c
  {
    var q := a / b;
    var q2 := q / c;
    DivMod(a, b);
    DivMod(q, c);
    var r := (q % c) * b + a % b;
    assert a == q2 * (b * c) + r by {
      assert a == q * b + a % b;
      assert q * b == (q2 * c + q % c) * b;
      assert (q2 * c + q % c) * b == q2 * (b * c) + (q % c) * b;
    }
    assert r < b * c by {
      MulMono(q % c, c - 1, b);
      assert (c - 1) * b == b * c - b;
    }
    DivUnique(a, b * c, q2, r);
  }
}

=== FILE: color.dfy ===
/** The `RGB` record shared by every part of the quantizer. */
module Color {

  /** A colour, or a channel-wise accumulation of colours.  Channels are
      unbounded because a node's `value` sums every sample merged into it. */
  datatype RGB = RGB(r: nat, g: nat, b: nat)

  const Black := RGB(0, 0, 0)

  /** True when every channel fits in one byte, as for a pixel read from an image. */
  predicate IsByteColor(c: RGB) {
    c.r <= 255 && c.g <= 255 && c.b <= 255
  }

  /** Channel-wise sum, the accumulation `OctreeNode.sum` performs. */
  function Add(a: RGB, b: RGB): RGB {
    RGB(a.r + b.r, a.g + b.g, a.b + b.b)
  }

  /** Black is the neutral element of the accumulation. */
  lemma AddBlack(x: RGB)
    ensures Add(Black, x) == x && Add(x, Black) == x
  {
  }
}

=== FILE: insert_only.dfy ===
/** Facts about trees built only by insertion below a root at depth 0: the
    shape they keep, the leaf ("bucket") each colour settles in, and how one
    insertion changes the leaves. */
module InsertOnly {
  import opened Wrappers
  import opened Color
  import opened Utils
  import opened OctreeNode

  // ----- Slot ranges -----

  lemma {:induction false} LeavesInSplit(n: Node, lo: int, mid: int, hi: int)
    requires lo <= mid <= hi
    ensures LeavesIn(n, lo, hi) == LeavesIn(n, lo, mid) + LeavesIn(n, mid, hi)
    decreases hi - mid
  {
    if hi > mid {
      LeavesInSplit(n, lo, mid, hi - 1);
    }
  }

  lemma {:induction false} LeavesInSame(n: Node, m: Node, lo: int, hi: int)
    requires forall k :: lo <= k < hi ==> SlotLeaves(n, k) == SlotLeaves(m, k)
    ensures LeavesIn(n, lo, hi) == LeavesIn(m, lo, hi)
    decreases hi - lo
  {
    if hi > lo {
      LeavesInSame(n, m, lo, hi - 1);
    }
  }

  lemma {:induction false} LeavesInEmpty(n: Node, lo: int, hi: int)
    requires forall k :: lo <= k < hi ==> !HasChild(n, k)
    ensures LeavesIn(n, lo, hi) == []
    decreases hi - lo
  {
    if hi > lo {
      LeavesInEmpty(n, lo, hi - 1);
      assert !HasChild(n, hi - 1);
    }
  }

  lemma {:induction false} LeavesInMember(n: Node, lo: int, hi: int, l: Node)
    requires l in LeavesIn(n, lo, hi)
    ensures exists k :: lo <= k < hi && HasChild(n, k) && l in GetLeaves(n.children[k].value)
    decreases hi - lo
  {
    if hi > lo {
      if l in LeavesIn(n, lo, hi - 1) {
        LeavesInMember(n, lo, hi - 1, l);
      }
    }
  }

  lemma LeavesInContains(n: Node, lo: int, hi: int, k: int)
    requires lo <= k < hi
    ensures forall l :: l in SlotLeaves(n, k) ==> l in LeavesIn(n, lo, hi)
  {
    LeavesInSplit(n, lo, k, hi);
    LeavesInSplit(n, k, k + 1, hi);
  }

  /** Replacing the child in slot i of an internal node replaces exactly the
      leaves of that slot within the node's leaves. */
  lemma ReplaceSlotLeaves(n: Node, i: nat, x: Node)
    requires !IsLeaf(n)
    requires i < |n.children|
    ensures GetLeaves(n) == LeavesIn(n, 0, i) + SlotLeaves(n, i) + LeavesIn(n, i + 1, |n.children|)
    ensures GetLeaves(SetChild(n, i, x))
      == LeavesIn(n, 0, i) + GetLeaves(x) + LeavesIn(n, i + 1, |n.children|)
  {
    var m := SetChild(n, i, x);
    var len := |n.children|;
    LeavesInSplit(n, 0, i, len);
    LeavesInSplit(n, i, i + 1, len);
    LeavesInSplit(m, 0, i, len);
    LeavesInSplit(m, i, i + 1, len);
    LeavesInSame(n, m, 0, i);
    LeavesInSame(n, m, i + 1, len);
  }

  // ----- The insert-only shape -----

  /** The key a node reached along `path` carries. */
  function PathKey(path: seq<nat>): int {
    if 1 <= |path| <= 6 then Digits(path) else -1
  }

  lemma KeyIsPathKey(c: RGB, depth: nat)
    ensures PaletteIndexFromRGB(c, depth) == PathKey(Planes(c, depth))
  {
  }

  /** `n` was reached from the root along the child slots in `path`, and the
      subtree below it is what insertion alone produces: leaves only at
      `maxDepth`, internal nodes with no samples, eight slots everywhere, each
      node keyed by its own path. */
  ghost predicate Shaped(n: Node, path: seq<nat>)
    decreases n
  {
    && n.depth == |path| <= n.maxDepth
    && IsSelectorPath(path)
    && n.paletteIndex == PathKey(path)
    && |n.children| == 8
    && (n.depth == n.maxDepth ==> IsLeaf(n) && forall k :: 0 <= k < 8 ==> n.children[k].None?)
    && (n.depth < n.maxDepth ==> n.refCount == 0 && n.value == Black)
    && forall k :: 0 <= k < 8 && n.children[k].Some? ==>
         n.children[k].value.maxDepth == n.maxDepth && Shaped(n.children[k].value, path + [k])
  }

  /** What `Shaped` says about one node and one of its children. */
  lemma ShapedChild(n: Node, path: seq<nat>, k: nat)
    requires Shaped(n, path)
    requires k < 8 && n.children[k].Some?
    ensures n.depth < n.maxDepth && !IsLeaf(n)
    ensures n.children[k].value.maxDepth == n.maxDepth
    ensures Shaped(n.children[k].value, path + [k])
    ensures n.children[k].value.depth == n.depth + 1
    ensures IsLeaf(n.children[k].value) <==> n.depth + 1 == n.maxDepth
  {
  }

  /** The leaf `q` lands in below `n`: follow the child for each next plane
      until a leaf; `None` when the way ends at an empty slot. */
  function BucketLeaf(n: Node, q: RGB): Option<Node>
    decreases n
  {
    if IsLeaf(n) then Some(n)
    else
      var j := ColorIndexForDepth(q, n.depth + 1);
      if j < |n.children| && n.children[j].Some? then BucketLeaf(n.children[j].value, q) else None
  }

  function BucketCount(n: Node, q: RGB): nat {
    match BucketLeaf(n, q)
    case Some(l) => l.refCount
    case None => 0
  }

  function BucketSum(n: Node, q: RGB): RGB {
    match BucketLeaf(n, q)
    case Some(l) => l.value
    case None => Black
  }

  /** `c` and `q` select the same child on every plane lo..hi. */
  ghost predicate Agree(c: RGB, q: RGB, lo: int, hi: int) {
    forall k :: lo <= k <= hi ==> ColorIndexForDepth(c, k) == ColorIndexForDepth(q, k)
  }

  // ----- The branch grown below an empty slot -----

  lemma {:induction false} GrowShaped(c: RGB, depth: nat, maxDepth: nat)
    requires depth <= maxDepth
    ensures Shaped(Grow(c, depth, maxDepth), Planes(c, depth))
    decreases maxDepth - depth
  {
    PlanesAreSelectors(c, depth);
    if depth < maxDepth {
      GrowShaped(c, depth + 1, maxDepth);
      PlanesExtend(c, depth);
    }
  }

  /** The branch grown at `depth`: a leaf holding `c` at `maxDepth`; above
      it, an internal node whose only child sits in the slot of the next plane. */
  lemma GrowStep(c: RGB, depth: nat, maxDepth: nat)
    requires depth <= maxDepth
    ensures var g := Grow(c, depth, maxDepth);
      && |g.children| == 8
      && (depth == maxDepth ==>
            g.refCount == 1 && g.value == c && forall k :: 0 <= k < 8 ==> g.children[k].None?)
      && (depth < maxDepth ==>
            && g.refCount == 0 && g.value == Black
            && forall k :: 0 <= k < 8 ==>
                 g.children[k] == if k == ColorIndexForDepth(c, depth + 1)
                   then Some(Grow(c, depth + 1, maxDepth)) else None)
  {
  }

  lemma AgreeStep(c: RGB, q: RGB, lo: int, hi: int)
    ensures lo > hi ==> Agree(c, q, lo, hi)
    ensures lo <= hi ==>
      (Agree(c, q, lo, hi) <==> ColorIndexForDepth(c, lo) == ColorIndexForDepth(q, lo) && Agree(c, q, lo + 1, hi))
  {
  }

  /** The branch grown for `c` is the bucket of exactly the colours that
      agree with `c` on the planes below its top node; that bucket is a fresh
      leaf holding `c` alone. */
  lemma {:induction false} GrowBucket(c: RGB, depth: nat, maxDepth: nat, q: RGB)
    requires depth <= maxDepth
    ensures BucketLeaf(Grow(c, depth, maxDepth), q)
      == if Agree(c, q, depth + 1, maxDepth) then Some(Grow(c, maxDepth, maxDepth)) else None
    decreases maxDepth - depth
  {
    AgreeStep(c, q, depth + 1, maxDepth);
    if depth < maxDepth {
      GrowBucket(c, depth + 1, maxDepth, q);
      GrowBucketStep(c, depth, maxDepth, q);
    } else {
      GrowStep(c, depth, maxDepth);
      assert BucketLeaf(Grow(c, depth, maxDepth), q) == Some(Grow(c, depth, maxDepth));
    }
  }

  /** Above `maxDepth`, a colour finds a bucket in a grown branch only through
      the branch's single child. */
  lemma GrowBucketStep(c: RGB, depth: nat, maxDepth: nat, q: RGB)
    requires depth < maxDepth
    ensures BucketLeaf(Grow(c, depth, maxDepth), q)
      == if ColorIndexForDepth(q, depth + 1) == ColorIndexForDepth(c, depth + 1)
         then BucketLeaf(Grow(c, depth + 1, maxDepth), q) else None
  {
    GrowStep(c, depth, maxDepth);
  }

  lemma {:induction false} GrowLeaves(c: RGB, depth: nat, maxDepth: nat)
    requires depth <= maxDepth
    ensures |GetLeaves(Grow(c, depth, maxDepth))| == 1
    ensures SampleCount(GetLeaves(Grow(c, depth, maxDepth))) == 1
    ensures SampleSum(GetLeaves(Grow(c, depth, maxDepth))) == c
    decreases maxDepth - depth
  {
    var g := Grow(c, depth, maxDepth);
    GrowStep(c, depth, maxDepth);
    if depth < maxDepth {
      var h := Grow(c, depth + 1, maxDepth);
      GrowLeaves(c, depth + 1, maxDepth);
      var i := ColorIndexForDepth(c, depth + 1);
      LeavesInSplit(g, 0, i, 8);
      LeavesInSplit(g, i, i + 1, 8);
      LeavesInEmpty(g, 0, i);
      LeavesInEmpty(g, i + 1, 8);
      assert SlotLeaves(g, i) == GetLeaves(h);
      assert LeavesIn(g, i, i + 1) == LeavesIn(g, i, i) + SlotLeaves(g, i);
      assert GetLeaves(g) == GetLeaves(h);
    } else {
      SamplesSingle(g);
    }
  }

  // ----- One insertion -----

  lemma SamplesSingle(l: Node)
    ensures SampleCount([l]) == l.refCount && SampleSum([l]) == l.value
  {
    assert [l][..0] == [];
  }

  lemma ShapedSetChild(n: Node, path: seq<nat>, i: nat, x: Node)
    requires Shaped(n, path)
    requires n.depth < n.maxDepth
    requires i < 8
    requires x.maxDepth == n.maxDepth && Shaped(x, path + [i])
    ensures Shaped(SetChild(n, i, x), path)
  {
    var r := SetChild(n, i, x);
    forall k | 0 <= k < 8 && r.children[k].Some?
      ensures r.children[k].value.maxDepth == r.maxDepth && Shaped(r.children[k].value, path + [k])
    {
      if k != i {
        assert r.children[k] == n.children[k];
      }
    }
  }

  /** The three ways `CreateChildRecursive` can treat the slot of the next plane. */
  lemma InsertUnfold(n: Node, c: RGB)
    requires |n.children| == 8
    requires n.depth < n.maxDepth
    ensures var i := ColorIndexForDepth(c, n.depth + 1);
      CreateChildRecursive(n, c) == SetChild(n, i,
        if n.children[i].None? then Grow(c, n.depth + 1, n.maxDepth)
        else if IsLeaf(n.children[i].value) then Absorb(n.children[i].value, c)
        else CreateChildRecursive(n.children[i].value, c))
  {
  }

  lemma AbsorbShaped(l: Node, path: seq<nat>, c: RGB)
    requires Shaped(l, path)
    requires IsLeaf(l)
    ensures Shaped(Absorb(l, c), path)
  {
  }

  /** Insertion below a node reached along the colour's own planes keeps the
      insert-only shape. */
  lemma {:induction false} InsertShaped(n: Node, c: RGB)
    requires Shaped(n, Planes(c, n.depth))
    requires n.depth < n.maxDepth
    ensures Shaped(CreateChildRecursive(n, c), Planes(c, n.depth))
    decreases n
  {
    var p := Planes(c, n.depth);
    var i := ColorIndexForDepth(c, n.depth + 1);
    PlanesExtend(c, n.depth);
    InsertUnfold(n, c);
    if n.children[i].Some? {
      var child := n.children[i].value;
      assert Shaped(child, p + [i]);
      if IsLeaf(child) {
        AbsorbShaped(child, p + [i], c);
        ShapedSetChild(n, p, i, Absorb(child, c));
      } else {
        InsertShaped(child, c);
        ShapedSetChild(n, p, i, CreateChildRecursive(child, c));
      }
    } else {
      GrowShaped(c, n.depth + 1, n.maxDepth);
      ShapedSetChild(n, p, i, Grow(c, n.depth + 1, n.maxDepth));
    }
  }

  /** After a slot of an internal node is replaced, colours routed to that
      slot find their bucket in the new child; all others find the old one. */
  lemma BucketSetChild(n: Node, i: nat, x: Node, q: RGB)
    requires !IsLeaf(n)
    requires i < |n.children|
    ensures BucketLeaf(SetChild(n, i, x), q)
      == if ColorIndexForDepth(q, n.depth + 1) == i then BucketLeaf(x, q) else BucketLeaf(n, q)
  {
    var j := ColorIndexForDepth(q, n.depth + 1);
    if j != i && j < |n.children| {
      assert SetChild(n, i, x).children[j] == n.children[j];
    }
  }

  /** The leaf a colour `c` ends in when its bucket was `b`: the old leaf with
      `c` merged in, or a fresh leaf holding `c` alone. */
  function Settle(b: Option<Node>, c: RGB, maxDepth: nat): Node {
    match b
    case Some(l) => Absorb(l, c)
    case None => Grow(c, maxDepth, maxDepth)
  }

  /** One insertion changes exactly one bucket: the colours that agree with
      `c` on every plane below `n` find their leaf with `c` merged in (or a
      new leaf holding `c`), every other colour finds the leaf it found before. */
  lemma {:induction false} InsertBucket(n: Node, c: RGB, q: RGB)
    requires Shaped(n, Planes(c, n.depth))
    requires n.depth < n.maxDepth
    ensures BucketLeaf(CreateChildRecursive(n, c), q)
      == if Agree(c, q, n.depth + 1, n.maxDepth) then Some(Settle(BucketLeaf(n, q), c, n.maxDepth))
         else BucketLeaf(n, q)
    decreases n
  {
    var p := Planes(c, n.depth);
    var i := ColorIndexForDepth(c, n.depth + 1);
    var j := ColorIndexForDepth(q, n.depth + 1);
    PlanesExtend(c, n.depth);
    InsertUnfold(n, c);
    AgreeStep(c, q, n.depth + 1, n.maxDepth);
    var x := CreateChildRecursive(n, c).children[i].value;
    assert !IsLeaf(n);
    BucketSetChild(n, i, x, q);
    if i == j {
      assert BucketLeaf(n, q) == if n.children[i].Some? then BucketLeaf(n.children[i].value, q) else None;
      if n.children[i].Some? {
        var child := n.children[i].value;
        ShapedChild(n, p, i);
        if IsLeaf(child) {
          AgreeStep(c, q, n.depth + 2, n.maxDepth);
          assert x == Absorb(child, c);
          assert BucketLeaf(x, q) == Some(x);
          assert BucketLeaf(child, q) == Some(child);
        } else {
          InsertBucket(child, c, q);
          assert x == CreateChildRecursive(child, c);
        }
      } else {
        GrowBucket(c, n.depth + 1, n.maxDepth, q);
        assert x == Grow(c, n.depth + 1, n.maxDepth);
      }
    }
  }

  /** The settled leaf holds one more sample than the old bucket. */
  lemma SettleCount(b: Option<Node>, c: RGB, maxDepth: nat)
    ensures Settle(b, c, maxDepth).refCount == (if b.Some? then b.value.refCount else 0) + 1
    ensures Settle(b, c, maxDepth).value == Add(if b.Some? then b.value.value else Black, c)
  {
    if b.None? {
      GrowStep(c, maxDepth, maxDepth);
      AddBlack(c);
    }
  }

  /** One insertion adds one sample to the bucket of the colours agreeing with
      `c` below `n` and leaves every other bucket's count as it was. */
  lemma InsertBucketCount(n: Node, c: RGB, q: RGB)
    requires Shaped(n, Planes(c, n.depth))
    requires n.depth < n.maxDepth
    ensures BucketCount(CreateChildRecursive(n, c), q)
      == BucketCount(n, q) + if Agree(c, q, n.depth + 1, n.maxDepth) then 1 else 0
  {
    InsertBucket(n, c, q);
    SettleCount(BucketLeaf(n, q), c, n.maxDepth);
  }

  /** The same insertion adds `c` to that bucket's colour sum only. */
  lemma InsertBucketSum(n: Node, c: RGB, q: RGB)
    requires Shaped(n, Planes(c, n.depth))
    requires n.depth < n.maxDepth
    ensures BucketSum(CreateChildRecursive(n, c), q)
      == if Agree(c, q, n.depth + 1, n.maxDepth) then Add(BucketSum(n, q), c) else BucketSum(n, q)
  {
    InsertBucket(n, c, q);
    SettleCount(BucketLeaf(n, q), c, n.maxDepth);
  }

  /** The leaf sums of an internal node whose slot i is replaced by x. */
  lemma ReplaceSlotSamples(n: Node, i: nat, x: Node)
    requires !IsLeaf(n)
    requires i < |n.children|
    ensures SampleCount(GetLeaves(SetChild(n, i, x))) + SampleCount(SlotLeaves(n, i))
         == SampleCount(GetLeaves(n)) + SampleCount(GetLeaves(x))
    ensures Add(SampleSum(GetLeaves(SetChild(n, i, x))), SampleSum(SlotLeaves(n, i)))
         == Add(SampleSum(GetLeaves(n)), SampleSum(GetLeaves(x)))
    ensures |GetLeaves(SetChild(n, i, x))| + |SlotLeaves(n, i)| == |GetLeaves(n)| + |GetLeaves(x)|
  {
    ReplaceSlotLeaves(n, i, x);
    var pre := LeavesIn(n, 0, i);
    var post := LeavesIn(n, i + 1, |n.children|);
    var old3 := SlotLeaves(n, i);
    var new3 := GetLeaves(x);
    assert GetLeaves(n) == pre + old3 + post;
    assert GetLeaves(SetChild(n, i, x)) == pre + new3 + post;
    ThreeParts(pre, old3, post);
    ThreeParts(pre, new3, post);
    AddSwap(SampleSum(pre), SampleSum(old3), SampleSum(new3), SampleSum(post));
  }

  lemma AddSwap(a: RGB, o: RGB, n: RGB, p: RGB)
    ensures Add(Add(Add(a, n), p), o) == Add(Add(Add(a, o), p), n)
  {
  }

  lemma AddCancel(a: RGB, b: RGB, o: RGB, c: RGB)
    requires Add(a, o) == Add(b, Add(o, c))
    ensures a == Add(b, c)
  {
  }

  lemma ThreeParts(a: seq<Node>, b: seq<Node>, c: seq<Node>)
    ensures SampleCount(a + b + c) == SampleCount(a) + SampleCount(b) + SampleCount(c)
    ensures SampleSum(a + b + c) == Add(Add(SampleSum(a), SampleSum(b)), SampleSum(c))
  {
    SamplesConcat(a, b);
    SamplesConcat(a + b, c);
  }

  /** One insertion adds exactly one sample and the colour's value to the
      leaves, and adds a leaf exactly when the colour had no bucket yet. */
  lemma {:induction false} InsertLeaves(n: Node, c: RGB)
    requires Shaped(n, Planes(c, n.depth))
    requires n.depth < n.maxDepth
    ensures SampleCount(GetLeaves(CreateChildRecursive(n, c))) == SampleCount(GetLeaves(n)) + 1
    ensures SampleSum(GetLeaves(CreateChildRecursive(n, c))) == Add(SampleSum(GetLeaves(n)), c)
    ensures |GetLeaves(CreateChildRecursive(n, c))|
      == |GetLeaves(n)| + if BucketLeaf(n, c).None? then 1 else 0
    decreases n
  {
    var p := Planes(c, n.depth);
    var i := ColorIndexForDepth(c, n.depth + 1);
    PlanesExtend(c, n.depth);
    InsertUnfold(n, c);
    var x := CreateChildRecursive(n, c).children[i].value;
    assert !IsLeaf(n);
    ReplaceSlotSamples(n, i, x);
    assert BucketLeaf(n, c) == if n.children[i].Some? then BucketLeaf(n.children[i].value, c) else None;
    if n.children[i].Some? {
      var child := n.children[i].value;
      ShapedChild(n, p, i);
      assert SlotLeaves(n, i) == GetLeaves(child);
      if IsLeaf(child) {
        assert x == Absorb(child, c);
        SamplesSingle(child);
        SamplesSingle(x);
      } else {
        assert x == CreateChildRecursive(child, c);
        InsertLeaves(child, c);
      }
      AddCancel(SampleSum(GetLeaves(SetChild(n, i, x))), SampleSum(GetLeaves(n)), SampleSum(GetLeaves(child)), c);
    } else {
      assert x == Grow(c, n.depth + 1, n.maxDepth);
      GrowLeaves(c, n.depth + 1, n.maxDepth);
      assert SlotLeaves(n, i) == [];
      AddCancel(SampleSum(GetLeaves(SetChild(n, i, x))), SampleSum(GetLeaves(n)), Black, c);
    }
  }

  // ----- Where the leaves are and what they are keyed by -----

  /** The bucket a colour finds is one of the leaves. */
  lemma {:induction false} BucketInLeaves(n: Node, q: RGB)
    requires BucketLeaf(n, q).Some?
    ensures BucketLeaf(n, q).value in GetLeaves(n)
    decreases n
  {
    if !IsLeaf(n) {
      var j := ColorIndexForDepth(q, n.depth + 1);
      var child := n.children[j].value;
      BucketInLeaves(child, q);
      assert SlotLeaves(n, j) == GetLeaves(child);
      LeavesInContains(n, 0, |n.children|, j);
    }
  }

  /** Below a node reached along `q`'s own planes, `q`'s bucket sits at the
      deepest level and carries `q`'s palette key for that depth. */
  lemma {:induction false} BucketKey(n: Node, q: RGB)
    requires Shaped(n, Planes(q, n.depth))
    requires BucketLeaf(n, q).Some?
    ensures BucketLeaf(n, q).value.depth == n.maxDepth
    ensures BucketLeaf(n, q).value.paletteIndex == PaletteIndexFromRGB(q, n.maxDepth)
    decreases n
  {
    if IsLeaf(n) {
      KeyIsPathKey(q, n.depth);
    } else {
      var j := ColorIndexForDepth(q, n.depth + 1);
      ShapedChild(n, Planes(q, n.depth), j);
      PlanesExtend(q, n.depth);
      BucketKey(n.children[j].value, q);
    }
  }

  /** `key`, read in base 8, begins with the digits of `path`. */
  ghost predicate KeyDigits(key: int, path: seq<nat>) {
    forall k :: 0 <= k < |path| ==> (key / Pow8(k)) % 8 == path[k]
  }

  /** Every leaf below a node reached along `path` sits at the deepest level
      and, when that depth has keys, its key begins with `path`; at a depth
      without keys every leaf carries -1. */
  lemma {:induction false} LeafKeys(n: Node, path: seq<nat>, l: Node)
    requires Shaped(n, path)
    requires l in GetLeaves(n)
    ensures l.depth == l.maxDepth == n.maxDepth
    ensures 1 <= n.maxDepth <= 6 ==> KeyDigits(l.paletteIndex, path)
    ensures !(1 <= n.maxDepth <= 6) ==> l.paletteIndex == -1
    decreases n
  {
    if IsLeaf(n) {
      assert l == n;
      if 1 <= n.maxDepth <= 6 {
        forall k | 0 <= k < |path|
          ensures (l.paletteIndex / Pow8(k)) % 8 == path[k]
        {
          DigitsDigitAt(path, k);
        }
      }
    } else {
      LeavesInMember(n, 0, |n.children|, l);
      var k :| 0 <= k < |n.children| && HasChild(n, k) && l in GetLeaves(n.children[k].value);
      ShapedChild(n, path, k);
      LeafKeys(n.children[k].value, path + [k], l);
      if 1 <= n.maxDepth <= 6 {
        assert forall i :: 0 <= i < |path| ==> (path + [k])[i] == path[i];
      }
    }
  }

  /** No two positions of `ls` carry the same key. */
  ghost predicate DistinctKeys(ls: seq<Node>) {
    forall a, b :: 0 <= a < b < |ls| ==> ls[a].paletteIndex != ls[b].paletteIndex
  }

  lemma DistinctConcat(xs: seq<Node>, ys: seq<Node>)
    requires DistinctKeys(xs) && DistinctKeys(ys)
    requires forall x, y :: x in xs && y in ys ==> x.paletteIndex != y.paletteIndex
    ensures DistinctKeys(xs + ys)
  {
    var zs := xs + ys;
    forall a, b | 0 <= a < b < |zs|
      ensures zs[a].paletteIndex != zs[b].paletteIndex
    {
      if b < |xs| {
        assert zs[a] == xs[a] && zs[b] == xs[b];
      } else if a >= |xs| {
        assert zs[a] == ys[a - |xs|] && zs[b] == ys[b - |xs|];
      } else {
        assert zs[a] in xs && zs[b] in ys;
      }
    }
  }

  /** When the deepest level has keys, the leaves of an insert-only tree
      carry pairwise different keys. */
  lemma {:induction false} LeafKeysDistinct(n: Node, path: seq<nat>)
    requires Shaped(n, path)
    requires 1 <= n.maxDepth <= 6
    ensures DistinctKeys(GetLeaves(n))
    decreases n, 1, 0
  {
    if !IsLeaf(n) {
      SlotsDistinct(n, path, 8);
    }
  }

  lemma {:induction false} SlotsDistinct(n: Node, path: seq<nat>, hi: nat)
    requires Shaped(n, path)
    requires 1 <= n.maxDepth <= 6
    requires hi <= 8
    ensures DistinctKeys(LeavesIn(n, 0, hi))
    decreases n, 0, hi
  {
    if hi > 0 {
      var xs := LeavesIn(n, 0, hi - 1);
      var ys := SlotLeaves(n, hi - 1);
      SlotsDistinct(n, path, hi - 1);
      if HasChild(n, hi - 1) {
        var child := n.children[hi - 1].value;
        ShapedChild(n, path, hi - 1);
        LeafKeysDistinct(child, path + [hi - 1]);
        forall x, y | x in xs && y in ys
          ensures x.paletteIndex != y.paletteIndex
        {
          LeavesInMember(n, 0, hi - 1, x);
          var k :| 0 <= k < hi - 1 && HasChild(n, k) && x in GetLeaves(n.children[k].value);
          ShapedChild(n, path, k);
          LeafKeys(n.children[k].value, path + [k], x);
          LeafKeys(child, path + [hi - 1], y);
          assert (x.paletteIndex / Pow8(|path|)) % 8 == k;
          assert (y.paletteIndex / Pow8(|path|)) % 8 == hi - 1;
        }
        DistinctConcat(xs, ys);
      } else {
        assert ys == [];
        assert xs + ys == xs;
      }
    }
  }
}

=== FILE: octree.dfy ===
/** The quantizer: a root node at depth 0, the per-depth registry of nodes
    that `removeLeavesAt` prunes, and the operations that fill the tree from
    an RGBA buffer and read the palette back out. */
module Octree {
  import opened Wrappers
  import opened Color
  import opened Utils
  import opened OctreeNode

  /** An element of a `Uint8ClampedArray`. */
  type Byte = x: nat | x < 256

  /** The depth a quantizer is built with when none is given. */
  const DefaultMaxDepth := 5

  datatype QuantizerError =
    | InvalidLevelCount          // `new Array(maxDepth + 1)` with a negative length
    | RootFailure(e: NodeError)  // the root's constructor rejected depth 0
    | DepthNotRemovable          // `removeLeavesAt` outside 2..maxDepth-1

  /** `levels[d]` lists the nodes registered at depth d, each named by the
      child slots that lead to it from the root. */
  datatype Quantizer = Quantizer(levels: seq<seq<seq<nat>>>, maxDepth: nat, root: Node)

  /** What the constructor establishes and no operation undoes: one registry
      entry per depth 0..maxDepth, and a root at depth 0 built for `maxDepth`. */
  predicate Valid(q: Quantizer) {
    && |q.levels| == q.maxDepth + 1
    && q.root.depth == 0
    && q.root.maxDepth == q.maxDepth
  }

  /** Every registry entry is empty. */
  predicate LevelsEmpty(levels: seq<seq<seq<nat>>>) {
    forall d :: 0 <= d < |levels| ==> levels[d] == []
  }

  /** The longest array JavaScript can allocate. */
  const MaxArrayLength := 0xFFFF_FFFF

  /** The constructor: `maxDepth + 1` empty registry entries and a black root
      at depth 0.  A length that is negative or past the longest array makes
      the registry allocation fail; a maxDepth of -1 passes that but is
      rejected by the root's constructor. */
  function NewQuantizer(maxDepth: int): (r: Result<Quantizer, QuantizerError>)
    ensures r.Success? <==> 0 <= maxDepth < MaxArrayLength
    ensures (maxDepth < -1 || maxDepth >= MaxArrayLength) ==> r == Failure(InvalidLevelCount)
    ensures maxDepth == -1 ==> r == Failure(RootFailure(DepthOutOfRange))
    ensures r.Success? ==>
      && Valid(r.value)
      && r.value.maxDepth == maxDepth
      && LevelsEmpty(r.value.levels)
      && r.value.root.value == Black
      && r.value.root.paletteIndex == -1
      && (IsLeaf(r.value.root) <==> maxDepth == 0)
      && r.value.root.children == EmptySlots
  {
    if maxDepth + 1 < 0 || maxDepth + 1 > MaxArrayLength then Failure(InvalidLevelCount)
    else
      match NewNode(Black, 0, maxDepth)
      case Failure(e) => Failure(RootFailure(e))
      case Success(root) => Success(Quantizer(seq(maxDepth + 1, _ => []), maxDepth, root))
  }

  /** A quantizer built with the default depth has six registry entries,
      one for each depth 0..5. */
  lemma DefaultQuantizer()
    ensures NewQuantizer(DefaultMaxDepth).Success?
    ensures |NewQuantizer(DefaultMaxDepth).value.levels| == 6
  {
  }

  /** The colours of an RGBA buffer, one per four bytes, alpha ignored. */
  function Pixels(buf: seq<Byte>): (ps: seq<RGB>)
    requires |buf| % 4 == 0
    ensures |ps| == |buf| / 4
    ensures forall k :: 0 <= k < |ps| ==> IsByteColor(ps[k])
  {
    seq(|buf| / 4, k requires 0 <= k < |buf| / 4 => RGB(buf[4 * k], buf[4 * k + 1], buf[4 * k + 2]))
  }

  /** The tree after inserting `ps` in order. */
  function InsertAll(n: Node, ps: seq<RGB>): (r: Node)
    ensures r.depth == n.depth && r.maxDepth == n.maxDepth && r.paletteIndex == n.paletteIndex
    ensures |ps| == 0 ==> r == n
  {
    if |ps| == 0 then n else CreateChildRecursive(InsertAll(n, ps[..|ps| - 1]), ps[|ps| - 1])
  }

  lemma PixelsStep(buf: seq<Byte>, i: nat)
    requires |buf| % 4 == 0
    requires i % 4 == 0 && i + 4 <= |buf|
    ensures Pixels(buf)[..(i + 4) / 4] == Pixels(buf)[..i / 4] + [RGB(buf[i], buf[i + 1], buf[i + 2])]
  {
    var ps := Pixels(buf);
    assert (i + 4) / 4 == i / 4 + 1;
    assert ps[i / 4] == RGB(buf[i], buf[i + 1], buf[i + 2]);
  }

  /** `quantize`: walks the buffer four bytes at a time and inserts each
      pixel's colour below the root; the registry is left as it was. */
  method Quantize(q: Quantizer, buf: seq<Byte>) returns (r: Quantizer)
    requires |buf| % 4 == 0
    ensures r.root == InsertAll(q.root, Pixels(buf))
    ensures r.levels == q.levels && r.maxDepth == q.maxDepth
  {
    var root := q.root;
    var i := 0;
    while i < |buf|
      invariant i % 4 == 0 && i <= |buf|
      invariant root == InsertAll(q.root, Pixels(buf)[..i / 4])
      decreases |buf| - i
    {
      var value := RGB(buf[i], buf[i + 1], buf[i + 2]);
      PixelsStep(buf, i);
      assert Pixels(buf)[..(i + 4) / 4][..i / 4] == Pixels(buf)[..i / 4];
      root := CreateChildRecursive(root, value);
      i := i + 4;
    }
    assert Pixels(buf)[..i / 4] == Pixels(buf);
    r := q.(root := root);
  }

  /** The quantizer's leaves are the root's. */
  function Leaves(q: Quantizer): (ls: seq<Node>)
    ensures AllLeaves(ls)
    ensures IsLeaf(q.root) ==> ls == [q.root]
  {
    GetLeaves(q.root)
  }

  /** The registry entry for `depth`; `None` where the array has no entry. */
  function GetNodesByLevel(q: Quantizer, depth: int): (r: Option<seq<seq<nat>>>)
    ensures r.Some? <==> 0 <= depth < |q.levels|
    ensures r.Some? ==> r.value == q.levels[depth]
  {
    if 0 <= depth < |q.levels| then Some(q.levels[depth]) else None
  }

  /** The node reached from `n` by following the child slots of `path`;
      `None` once a slot on the way is empty. */
  function Reach(n: Node, path: seq<nat>): (r: Option<Node>)
    ensures |path| == 0 ==> r == Some(n)
    decreases |path|
  {
    if |path| == 0 then Some(n)
    else if HasChild(n, path[0]) then Reach(n.children[path[0]].value, path[1..])
    else None
  }

  /** Neither path is a prefix of the other: they part at some slot, so the
      nodes they name lie in disjoint subtrees. */
  predicate Apart(p: seq<nat>, q: seq<nat>)
    decreases |p|
  {
    |p| > 0 && |q| > 0 && (p[0] != q[0] || Apart(p[1..], q[1..]))
  }

  /** Prunes the node reached from `n` along `path`; a path that runs into an
      empty slot names no node and changes nothing. */
  function PruneAt(n: Node, path: seq<nat>): (r: Node)
    ensures r.depth == n.depth && r.maxDepth == n.maxDepth && r.paletteIndex == n.paletteIndex
    ensures Reach(n, path).None? ==> r == n
    ensures Reach(n, path).Some? ==> Reach(r, path) == Some(PruneLeaves(Reach(n, path).value).0)
    decreases |path|
  {
    if |path| == 0 then PruneLeaves(n).0
    else if HasChild(n, path[0]) then SetChild(n, path[0], PruneAt(n.children[path[0]].value, path[1..]))
    else n
  }

  /** Pruning along `path` leaves every node on a path apart from it as it was. */
  lemma {:induction false} PruneAtFrame(n: Node, path: seq<nat>, p: seq<nat>)
    requires Apart(p, path)
    ensures Reach(PruneAt(n, path), p) == Reach(n, p)
    decreases |path|
  {
    if HasChild(n, path[0]) {
      var r := PruneAt(n, path);
      var c := n.children[path[0]].value;
      if p[0] == path[0] {
        PruneAtFrame(c, path[1..], p[1..]);
      } else {
        assert HasChild(r, p[0]) == HasChild(n, p[0]);
      }
    }
  }

  /** Prunes each registered node in turn. */
  function PruneEach(n: Node, paths: seq<seq<nat>>): (r: Node)
    ensures paths == [] ==> r == n
    ensures r.depth == n.depth && r.maxDepth == n.maxDepth && r.paletteIndex == n.paletteIndex
  {
    if |paths| == 0 then n else PruneAt(PruneEach(n, paths[..|paths| - 1]), paths[|paths| - 1])
  }

  /** A path apart from every registered path reaches the same node after
      all of them are pruned. */
  lemma {:induction false} PruneEachFrame(n: Node, paths: seq<seq<nat>>, p: seq<nat>)
    requires forall i :: 0 <= i < |paths| ==> Apart(p, paths[i])
    ensures Reach(PruneEach(n, paths), p) == Reach(n, p)
  {
    if |paths| > 0 {
      var front := paths[..|paths| - 1];
      PruneEachFrame(n, front, p);
      PruneAtFrame(PruneEach(n, front), paths[|paths| - 1], p);
    }
  }

  /** The registered paths name nodes in pairwise disjoint subtrees, as
      distinct nodes of one depth do. */
  predicate PairwiseApart(paths: seq<seq<nat>>) {
    forall a, b :: 0 <= a < |paths| && 0 <= b < |paths| && a != b ==> Apart(paths[a], paths[b])
  }

  /** When the registered paths are pairwise apart, each registered node is
      pruned exactly once, and a path naming no node stays empty. */
  lemma {:induction false} PruneEachPrunes(n: Node, paths: seq<seq<nat>>, i: nat)
    requires PairwiseApart(paths)
    requires i < |paths|
    ensures Reach(n, paths[i]).None? ==> Reach(PruneEach(n, paths), paths[i]).None?
    ensures Reach(n, paths[i]).Some? ==>
      Reach(PruneEach(n, paths), paths[i]) == Some(PruneLeaves(Reach(n, paths[i]).value).0)
  {
    var front := paths[..|paths| - 1];
    var last := paths[|paths| - 1];
    assert PruneEach(n, paths) == PruneAt(PruneEach(n, front), last);
    if i == |paths| - 1 {
      PruneEachFrame(n, front, last);
    } else {
      assert PairwiseApart(front);
      PruneEachPrunes(n, front, i);
      PruneAtFrame(PruneEach(n, front), last, paths[i]);
    }
  }

  /** `removeLeavesAt`: only depths 2..maxDepth-1 are accepted; the nodes
      registered at `depth` are pruned and the registry entry one level
      deeper is emptied. */
  function RemoveLeavesAt(q: Quantizer, depth: int): (r: Result<Quantizer, QuantizerError>)
    requires Valid(q)
    ensures r.Failure? <==> depth < 2 || depth >= q.maxDepth
    ensures r.Failure? ==> r.error == DepthNotRemovable
    ensures r.Success? ==>
      && Valid(r.value)
      && r.value.maxDepth == q.maxDepth
      && r.value.levels == q.levels[depth + 1 := []]
      && (q.levels[depth] == [] ==> r.value.root == q.root)
  {
    if depth < 2 || depth >= q.maxDepth then Failure(DepthNotRemovable)
    else
      Success(Quantizer(q.levels[depth + 1 := []], q.maxDepth, PruneEach(q.root, q.levels[depth])))
  }

  /** An accepted `removeLeavesAt` prunes each node registered at `depth`
      when the registered paths are pairwise apart. */
  lemma RemoveLeavesAtPrunes(q: Quantizer, depth: int, i: nat)
    requires Valid(q)
    requires 2 <= depth < q.maxDepth
    requires PairwiseApart(q.levels[depth]) && i < |q.levels[depth]|
    ensures var path := q.levels[depth][i];
      Reach(q.root, path).Some? ==>
        Reach(RemoveLeavesAt(q, depth).value.root, path) == Some(PruneLeaves(Reach(q.root, path).value).0)
  {
    PruneEachPrunes(q.root, q.levels[depth], i);
  }

  /** ... and leaves every node apart from all registered paths as it was. */
  lemma RemoveLeavesAtFrame(q: Quantizer, depth: int, p: seq<nat>)
    requires Valid(q)
    requires 2 <= depth < q.maxDepth
    requires forall i :: 0 <= i < |q.levels[depth]| ==> Apart(p, q.levels[depth][i])
    ensures Reach(RemoveLeavesAt(q, depth).value.root, p) == Reach(q.root, p)
  {
    PruneEachFrame(q.root, q.levels[depth], p);
  }

  /** The colour `getColor` returns for a leaf. */
  function LeafColor(l: Node): (c: RGB)
    requires IsLeaf(l)
    ensures GetColor(l) == Success(c)
  {
    GetColor(l).value
  }

  /** `palette` over a sequence of leaves, scanned in order: a leaf whose key
      is already present is skipped, so the first leaf with a key wins. */
  function PaletteOf(ls: seq<Node>): (m: map<int, RGB>)
    requires AllLeaves(ls)
    ensures forall k :: k in m <==> exists l :: l in ls && l.paletteIndex == k
  {
    if |ls| == 0 then map[]
    else
      var front := ls[..|ls| - 1];
      var l := ls[|ls| - 1];
      assert forall x :: x in ls <==> x in front || x == l;
      var m := PaletteOf(front);
      if l.paletteIndex in m then m else m[l.paletteIndex := LeafColor(l)]
  }

  /** The palette of the quantizer's leaves. */
  function Palette(q: Quantizer): (m: map<int, RGB>)
    ensures forall k :: k in m <==> exists l :: l in Leaves(q) && l.paletteIndex == k
  {
    PaletteOf(Leaves(q))
  }
}

=== FILE: octree_node.dfy ===
/** One vertex of the colour octree: an immutable value whose operations return
    the updated node.  A node is a leaf exactly when it carries samples. */
module OctreeNode {
  import opened Wrappers
  import opened Color
  import opened Utils

  datatype NodeError = DepthOutOfRange | NotALeaf

  /** `value` accumulates the colours merged into the node, `refCount` counts
      them; a child slot holds `None` where the `children` array holds no node.  A fresh
      node has eight slots; pruning leaves it with none. */
  datatype Node = Node(
    value: RGB,
    refCount: nat,
    paletteIndex: int,
    depth: nat,
    maxDepth: nat,
    children: seq<Option<Node>>)

  const EmptySlots: seq<Option<Node>> := [None, None, None, None, None, None, None, None]

  predicate IsLeaf(n: Node) {
    n.refCount > 0
  }

  predicate AllLeaves(ls: seq<Node>) {
    forall l :: l in ls ==> IsLeaf(l)
  }

  /** The node the constructor builds once its depth has passed the range check. */
  function Fresh(value: RGB, depth: nat, maxDepth: nat): Node
    requires depth <= maxDepth
  {
    var refCount := if depth == maxDepth then 1 else 0;
    Node(
      if refCount > 0 then value else Black,
      refCount,
      PaletteIndexFromRGB(value, depth),
      depth,
      maxDepth,
      EmptySlots)
  }

  /** The constructor: a depth outside 0..maxDepth is an error; a node built at
      `maxDepth` is born a leaf holding its colour as one sample; any other
      node is internal with a zero sum.  Either way the key is computed from
      the colour at the node's own depth. */
  function NewNode(value: RGB, depth: int, maxDepth: int): (r: Result<Node, NodeError>)
    ensures r.Failure? <==> depth < 0 || depth > maxDepth
    ensures r.Failure? ==> r.error == DepthOutOfRange
    ensures r.Success? ==>
      && r.value.depth == depth && r.value.maxDepth == maxDepth
      && (IsLeaf(r.value) <==> depth == maxDepth)
      && (depth == maxDepth ==> r.value.refCount == 1 && r.value.value == value)
      && (depth < maxDepth ==> r.value.refCount == 0 && r.value.value == Black)
      && r.value.paletteIndex == PaletteIndexFromRGB(value, depth)
      && |r.value.children| == 8
      && forall i :: 0 <= i < 8 ==> r.value.children[i].None?
  {
    if depth < 0 || depth > maxDepth then Failure(DepthOutOfRange)
    else Success(Fresh(value, depth, maxDepth))
  }

  /** Adds `num` samples to the count; a positive count makes the node a leaf. */
  function Count(n: Node, num: nat): (r: Node)
    ensures num > 0 ==> IsLeaf(r)
    ensures IsLeaf(n) ==> IsLeaf(r)
    ensures r.refCount == n.refCount + num
    ensures r.(refCount := n.refCount) == n
  {
    n.(refCount := n.refCount + num)
  }

  /** Adds a colour into the accumulated sum without touching the count. */
  function Sum(n: Node, c: RGB): (r: Node)
    ensures IsLeaf(r) <==> IsLeaf(n)
    ensures r.(value := n.value) == n
    ensures r.value.r == n.value.r + c.r && r.value.g == n.value.g + c.g && r.value.b == n.value.b + c.b
  {
    n.(value := Add(n.value, c))
  }

  /** The average colour of a leaf; asking an internal node is an error. */
  function GetColor(n: Node): (r: Result<RGB, NodeError>)
    ensures r.Failure? <==> !IsLeaf(n)
    ensures r.Failure? ==> r.error == NotALeaf
    ensures r.Success? ==> r.value == NormalizeColor(n.value, n.refCount) && IsByteColor(r.value)
  {
    if !IsLeaf(n) then Failure(NotALeaf) else Success(NormalizeColor(n.value, n.refCount))
  }

  /** Whether slot `index` holds a node; any other index holds none. */
  function HasChild(n: Node, index: int): (b: bool)
    ensures b ==> 0 <= index < |n.children|
  {
    0 <= index < |n.children| && n.children[index].Some?
  }

  /** Stores `child` in slot `i`, growing an emptied slot list with empty
      slots up to `i` as an assignment past the end of an array does. */
  function SetChild(n: Node, i: nat, child: Node): (r: Node)
    ensures |r.children| == if i < |n.children| then |n.children| else i + 1
    ensures r.children[i] == Some(child)
    ensures forall k :: 0 <= k < |r.children| && k != i ==>
      r.children[k] == if k < |n.children| then n.children[k] else None
    ensures r.(children := n.children) == n
  {
    if i < |n.children| then n.(children := n.children[i := Some(child)])
    else n.(children := n.children + seq(i - |n.children|, _ => None) + [Some(child)])
  }

  /** The merge of one colour into an existing leaf: sum, then count. */
  function Absorb(n: Node, c: RGB): Node {
    Count(Sum(n, c), 1)
  }

  /** The branch `createChildRecursive` builds below a missing slot: a fresh
      node at `depth`, and below it, while `depth < maxDepth`, the branch for
      the next plane, down to a leaf at `maxDepth`. */
  function Grow(c: RGB, depth: nat, maxDepth: nat): (r: Node)
    requires depth <= maxDepth
    ensures r.depth == depth && r.maxDepth == maxDepth
    ensures r.paletteIndex == PaletteIndexFromRGB(c, depth)
    ensures IsLeaf(r) <==> depth == maxDepth
    decreases maxDepth - depth
  {
    var node := Fresh(c, depth, maxDepth);
    if depth + 1 <= maxDepth then SetChild(node, ColorIndexForDepth(c, depth + 1), Grow(c, depth + 1, maxDepth))
    else node
  }

  /** Inserts one colour below `n`: the child for plane `depth + 1` absorbs it
      if it is a leaf, is descended into if it is internal, and is grown if it
      is missing and the next depth does not pass `maxDepth`. */
  function CreateChildRecursive(n: Node, c: RGB): (r: Node)
    ensures r.(children := n.children) == n
    ensures |r.children| >= |n.children|
    ensures forall k :: 0 <= k < |n.children| && k != ColorIndexForDepth(c, n.depth + 1) ==>
      r.children[k] == n.children[k]
    decreases n
  {
    var i := ColorIndexForDepth(c, n.depth + 1);
    if i < |n.children| && n.children[i].Some? then
      var child := n.children[i].value;
      if IsLeaf(child) then SetChild(n, i, Absorb(child, c))
      else SetChild(n, i, CreateChildRecursive(child, c))
    else if n.depth + 1 <= n.maxDepth then
      SetChild(n, i, Grow(c, n.depth + 1, n.maxDepth))
    else
      n
  }

  /** The leaves below `n`, depth first: a leaf is its own only leaf; otherwise
      the leaves below the children in slot order. */
  function GetLeaves(n: Node): (r: seq<Node>)
    ensures AllLeaves(r)
    ensures IsLeaf(n) ==> r == [n]
    decreases n, 2, 0
  {
    if IsLeaf(n) then [n] else LeavesIn(n, 0, |n.children|)
  }

  /** The leaves below the children in slots lo..hi-1, in slot order. */
  function LeavesIn(n: Node, lo: int, hi: int): (r: seq<Node>)
    ensures AllLeaves(r)
    decreases n, 1, hi - lo
  {
    if hi <= lo then []
    else LeavesIn(n, lo, hi - 1) + SlotLeaves(n, hi - 1)
  }

  function SlotLeaves(n: Node, k: int): (r: seq<Node>)
    ensures AllLeaves(r)
    decreases n, 0, 0
  {
    if 0 <= k < |n.children| && n.children[k].Some? then GetLeaves(n.children[k].value) else []
  }

  /** The samples and the colour sum carried by a sequence of nodes. */
  function SampleCount(ls: seq<Node>): nat {
    if |ls| == 0 then 0 else SampleCount(ls[..|ls| - 1]) + ls[|ls| - 1].refCount
  }

  function SampleSum(ls: seq<Node>): RGB {
    if |ls| == 0 then Black else Add(SampleSum(ls[..|ls| - 1]), ls[|ls| - 1].value)
  }

  lemma {:induction false} SamplesConcat(a: seq<Node>, b: seq<Node>)
    ensures SampleCount(a + b) == SampleCount(a) + SampleCount(b)
    ensures SampleSum(a + b) == Add(SampleSum(a), SampleSum(b))
  {
    if |b| > 0 {
      var ab := a + b;
      var b' := b[..|b| - 1];
      assert ab[..|ab| - 1] == a + b';
      assert ab[|ab| - 1] == b[|b| - 1];
      SamplesConcat(a, b');
      assert SampleCount(ab) == SampleCount(a + b') + b[|b| - 1].refCount;
      assert SampleSum(ab) == Add(SampleSum(a + b'), b[|b| - 1].value);
    } else {
      assert a + b == a;
    }
  }

  /** The nodes held in slots 0..k-1, in slot order. */
  function Present(ch: seq<Option<Node>>, k: nat): (r: seq<Node>)
    requires k <= |ch|
    ensures |r| <= k
    ensures forall x :: x in r <==> exists j :: 0 <= j < k && ch[j] == Some(x)
  {
    if k == 0 then []
    else
      var front := Present(ch, k - 1);
      match ch[k - 1]
      case None => front
      case Some(c) => front + [c]
  }

  /** What `pruneLeaves` gathers from the children in slots 0..k-1: the sum of
      their counts, the sum of their sums, and how many slots held a node. */
  datatype Tally = Tally(refs: nat, sum: RGB, present: nat)

  function ChildTally(ch: seq<Option<Node>>, k: nat): (t: Tally)
    requires k <= |ch|
    ensures t.present <= k
  {
    if k == 0 then Tally(0, Black, 0)
    else
      var t := ChildTally(ch, k - 1);
      match ch[k - 1]
      case None => t
      case Some(c) => Tally(t.refs + c.refCount, Add(t.sum, c.value), t.present + 1)
  }

  /** The tally is the count and the colour sum of the children present. */
  lemma {:induction false} TallyIsPresent(ch: seq<Option<Node>>, k: nat)
    requires k <= |ch|
    ensures ChildTally(ch, k).refs == SampleCount(Present(ch, k))
    ensures ChildTally(ch, k).sum == SampleSum(Present(ch, k))
    ensures ChildTally(ch, k).present == |Present(ch, k)|
  {
    if k > 0 {
      TallyIsPresent(ch, k - 1);
      var p := Present(ch, k);
      var front := Present(ch, k - 1);
      if ch[k - 1].Some? {
        var c := ch[k - 1].value;
        assert p == front + [c];
        assert p[..|p| - 1] == front;
        assert SampleCount(p) == SampleCount(front) + c.refCount;
        assert SampleSum(p) == Add(SampleSum(front), c.value);
      } else {
        assert p == front;
      }
    }
  }

  /** Folds every child's count and sum into `n`, drops all children, and
      returns how many children there were.  Only the children's own counts
      and sums move up: whatever lies below an internal child is lost. */
  function PruneLeaves(n: Node): (r: (Node, nat))
    ensures r.0.children == []
    ensures r.0.depth == n.depth && r.0.maxDepth == n.maxDepth && r.0.paletteIndex == n.paletteIndex
    ensures r.0.refCount == n.refCount + SampleCount(Present(n.children, |n.children|))
    ensures r.0.value == Add(n.value, SampleSum(Present(n.children, |n.children|)))
    ensures IsLeaf(r.0) <==> IsLeaf(n) || exists k :: 0 <= k < |n.children| && n.children[k].Some? && IsLeaf(n.children[k].value)
    ensures r.1 == |PresentSlots(n.children, |n.children|)|
    ensures r.1 <= |n.children|
  {
    TallyLeaf(n.children, |n.children|);
    TallyPresent(n.children, |n.children|);
    TallyIsPresent(n.children, |n.children|);
    var t := ChildTally(n.children, |n.children|);
    (n.(refCount := n.refCount + t.refs, value := Add(n.value, t.sum), children := []), t.present)
  }

  lemma {:induction false} TallyLeaf(ch: seq<Option<Node>>, k: nat)
    requires k <= |ch|
    ensures ChildTally(ch, k).refs > 0 <==> exists j :: 0 <= j < k && ch[j].Some? && IsLeaf(ch[j].value)
  {
    if k > 0 {
      TallyLeaf(ch, k - 1);
    }
  }

  /** The slots among 0..k-1 that hold a node. */
  function PresentSlots(ch: seq<Option<Node>>, k: nat): set<nat>
    requires k <= |ch|
  {
    set j: nat | j < k && ch[j].Some?
  }

  lemma {:induction false} TallyPresent(ch: seq<Option<Node>>, k: nat)
    requires k <= |ch|
    ensures ChildTally(ch, k).present == |PresentSlots(ch, k)|
  {
    if k > 0 {
      TallyPresent(ch, k - 1);
      if ch[k - 1].Some? {
        assert PresentSlots(ch, k) == PresentSlots(ch, k - 1) + {k - 1};
      } else {
        assert PresentSlots(ch, k) == PresentSlots(ch, k - 1);
      }
    } else {
      assert PresentSlots(ch, k) == {};
    }
  }

  /** Folds the child in slot `index` into `n`: the child is pruned first,
      then its count and sum move into `n` and the slot is emptied.  An empty
      or out-of-range slot leaves `n` as it is. */
  function Remove(n: Node, index: int): (r: Node)
    ensures !HasChild(n, index) ==> r == n
    ensures HasChild(n, index) ==>
      && |r.children| == |n.children|
      && r.children[index].None?
      && (forall k :: 0 <= k < |n.children| && k != index ==> r.children[k] == n.children[k])
      && r.depth == n.depth && r.maxDepth == n.maxDepth && r.paletteIndex == n.paletteIndex
      && (var c := n.children[index].value;
          var below := Present(c.children, |c.children|);
          && r.refCount == n.refCount + c.refCount + SampleCount(below)
          && r.value == Add(n.value, Add(c.value, SampleSum(below))))
      && (IsLeaf(n.children[index].value) ==> IsLeaf(r))
  {
    if !HasChild(n, index) then n
    else
      var pruned := PruneLeaves(n.children[index].value).0;
      n.(refCount := n.refCount + pruned.refCount,
         value := Add(n.value, pruned.value),
         children := n.children[index := None])
  }
}

=== FILE: octree_theorems.dfy ===
/** What a quantizer built by the constructor and filled by `quantize` looks
    like: the registry stays empty, every pixel is counted in exactly one
    leaf, the leaves are the distinct buckets of the pixels, and the palette
    has an entry, the average of its bucket, for every pixel. */
module OctreeTheorems {
  import opened Wrappers
  import opened Color
  import opened Utils
  import opened OctreeNode
  import opened InsertOnly
  import opened Octree

  // ----- Reachable states -----

  /** The states the constructor and `quantize` produce. */
  ghost predicate Reachable(q: Quantizer) {
    && Valid(q)
    && LevelsEmpty(q.levels)
    && Shaped(q.root, [])
  }

  lemma NewQuantizerReachable(maxDepth: int)
    requires 0 <= maxDepth < MaxArrayLength
    ensures NewQuantizer(maxDepth).Success?
    ensures Reachable(NewQuantizer(maxDepth).value)
  {
    var q := NewQuantizer(maxDepth).value;
    assert q.root == Fresh(Black, 0, maxDepth);
  }

  lemma PlanesZero(c: RGB)
    ensures Planes(c, 0) == []
  {
  }

  /** At the deepest level there is no next plane: insertion changes nothing. */
  lemma InsertAtMaxDepth(n: Node, path: seq<nat>, c: RGB)
    requires Shaped(n, path)
    requires n.depth == n.maxDepth
    ensures CreateChildRecursive(n, c) == n
  {
    var i := ColorIndexForDepth(c, n.depth + 1);
    assert n.children[i].None?;
  }

  /** Inserting any sequence of colours below a root in insert-only shape
      keeps that shape. */
  lemma {:induction false} InsertAllShaped(root: Node, ps: seq<RGB>)
    requires root.depth == 0
    requires Shaped(root, [])
    ensures Shaped(InsertAll(root, ps), [])
    ensures InsertAll(root, ps).depth == 0 && InsertAll(root, ps).maxDepth == root.maxDepth
  {
    if |ps| > 0 {
      var c := ps[|ps| - 1];
      InsertAllShaped(root, ps[..|ps| - 1]);
      var n := InsertAll(root, ps[..|ps| - 1]);
      PlanesZero(c);
      if n.depth < n.maxDepth {
        InsertShaped(n, c);
      } else {
        InsertAtMaxDepth(n, [], c);
      }
    }
  }

  /** `quantize` keeps a quantizer reachable. */
  lemma QuantizeReachable(q: Quantizer, buf: seq<Byte>)
    requires Reachable(q)
    requires |buf| % 4 == 0
    ensures Reachable(q.(root := InsertAll(q.root, Pixels(buf))))
  {
    InsertAllShaped(q.root, Pixels(buf));
  }

  /** Nothing ever registers a node, so on every reachable quantizer a
      `removeLeavesAt` with an accepted depth changes nothing at all. */
  lemma RemoveLeavesAtNoOp(q: Quantizer, depth: int)
    requires Reachable(q)
    requires 2 <= depth < q.maxDepth
    ensures RemoveLeavesAt(q, depth) == Success(q)
  {
    assert q.levels[depth] == [];
    assert q.levels[depth + 1 := []] == q.levels;
  }

  // ----- Re-insertion -----

  /** `a` and `b` hold nodes in the same places: as many slots, filled in
      the same slots, all the way down. */
  ghost predicate SameShape(a: Node, b: Node)
    decreases a
  {
    && |a.children| == |b.children|
    && forall k :: 0 <= k < |a.children| ==>
         && (a.children[k].Some? <==> b.children[k].Some?)
         && (a.children[k].Some? ==> SameShape(a.children[k].value, b.children[k].value))
  }

  lemma {:induction false} SameShapeRefl(a: Node)
    ensures SameShape(a, a)
    decreases a
  {
    forall k | 0 <= k < |a.children| && a.children[k].Some?
      ensures SameShape(a.children[k].value, a.children[k].value)
    {
      SameShapeRefl(a.children[k].value);
    }
  }

  /** Inserting a colour whose leaf already exists creates no node: the
      tree keeps its shape and only that leaf's count and sum change. */
  lemma {:induction false} ReinsertKeepsShape(n: Node, c: RGB)
    requires Shaped(n, Planes(c, n.depth))
    requires n.depth < n.maxDepth
    requires BucketLeaf(n, c).Some?
    ensures SameShape(CreateChildRecursive(n, c), n)
    decreases n
  {
    var p := Planes(c, n.depth);
    var i := ColorIndexForDepth(c, n.depth + 1);
    PlanesExtend(c, n.depth);
    InsertUnfold(n, c);
    assert !IsLeaf(n);
    assert BucketLeaf(n, c) == if n.children[i].Some? then BucketLeaf(n.children[i].value, c) else None;
    var child := n.children[i].value;
    ShapedChild(n, p, i);
    var r := CreateChildRecursive(n, c);
    var x := r.children[i].value;
    if IsLeaf(child) {
      assert x == Absorb(child, c);
      SameShapeRefl(child);
      assert SameShape(x, child);
    } else {
      assert x == CreateChildRecursive(child, c);
      ReinsertKeepsShape(child, c);
    }
    forall k | 0 <= k < |r.children|
      ensures r.children[k].Some? <==> n.children[k].Some?
      ensures r.children[k].Some? ==> SameShape(r.children[k].value, n.children[k].value)
    {
      if k != i && n.children[k].Some? {
        SameShapeRefl(n.children[k].value);
      }
    }
  }

  // ----- Every pixel counted once -----

  /** The sum of the colours of `ps`. */
  function PixelSum(ps: seq<RGB>): RGB {
    if |ps| == 0 then Black else Add(PixelSum(ps[..|ps| - 1]), ps[|ps| - 1])
  }

  /** One insertion below a root, with the preconditions of the single-step
      facts discharged. */
  lemma RootInsert(n: Node, c: RGB)
    requires n.depth == 0 && Shaped(n, []) && n.maxDepth >= 1
    ensures Shaped(n, Planes(c, n.depth))
  {
    PlanesZero(c);
  }

  /** Every inserted pixel adds one sample to the leaves. */
  lemma {:induction false} InsertAllCount(root: Node, ps: seq<RGB>)
    requires root.depth == 0 && Shaped(root, []) && root.maxDepth >= 1
    ensures SampleCount(GetLeaves(InsertAll(root, ps))) == SampleCount(GetLeaves(root)) + |ps|
  {
    if |ps| > 0 {
      var front := ps[..|ps| - 1];
      InsertAllCount(root, front);
      InsertAllShaped(root, front);
      var n := InsertAll(root, front);
      RootInsert(n, ps[|ps| - 1]);
      InsertLeaves(n, ps[|ps| - 1]);
    }
  }

  /** Every inserted pixel adds its colour to the leaves' colour sums. */
  lemma {:induction false} InsertAllSum(root: Node, ps: seq<RGB>)
    requires root.depth == 0 && Shaped(root, []) && root.maxDepth >= 1
    ensures SampleSum(GetLeaves(InsertAll(root, ps))) == Add(SampleSum(GetLeaves(root)), PixelSum(ps))
  {
    if |ps| == 0 {
      AddBlack(SampleSum(GetLeaves(root)));
    } else {
      var front := ps[..|ps| - 1];
      var c := ps[|ps| - 1];
      var s0 := SampleSum(GetLeaves(root));
      InsertAllSum(root, front);
      InsertAllShaped(root, front);
      var n := InsertAll(root, front);
      assert InsertAll(root, ps) == CreateChildRecursive(n, c);
      assert PixelSum(ps) == Add(PixelSum(front), c);
      RootInsert(n, c);
      InsertLeaves(n, c);
      AddAssoc(s0, PixelSum(front), c);
    }
  }

  lemma AddAssoc(a: RGB, b: RGB, c: RGB)
    ensures Add(Add(a, b), c) == Add(a, Add(b, c))
  {
  }

  /** A fresh root of a tree deeper than 0 holds no leaf and no bucket. */
  lemma FreshRoot(m: nat, q: RGB)
    requires m >= 1
    ensures Shaped(Fresh(Black, 0, m), [])
    ensures GetLeaves(Fresh(Black, 0, m)) == []
    ensures BucketLeaf(Fresh(Black, 0, m), q) == None
  {
    var r := Fresh(Black, 0, m);
    LeavesInEmpty(r, 0, 8);
  }

  /** A quantizer of depth at least 1 fed `buf` holds one sample per pixel,
      and its leaves' colours add up to the pixels' colours. */
  lemma QuantizeConserves(maxDepth: nat, buf: seq<Byte>)
    requires 1 <= maxDepth < MaxArrayLength
    requires |buf| % 4 == 0
    ensures var ls := GetLeaves(InsertAll(NewQuantizer(maxDepth).value.root, Pixels(buf)));
      SampleCount(ls) == |buf| / 4 && SampleSum(ls) == PixelSum(Pixels(buf))
  {
    var root := NewQuantizer(maxDepth).value.root;
    FreshRoot(maxDepth, Black);
    InsertAllCount(root, Pixels(buf));
    InsertAllSum(root, Pixels(buf));
    AddBlack(PixelSum(Pixels(buf)));
  }

  // ----- Buckets -----

  /** `p` and `q` select the same child on every plane 1..m. */
  predicate SameBucket(p: RGB, q: RGB, m: nat) {
    Planes(p, m) == Planes(q, m)
  }

  lemma AgreePlanes(p: RGB, q: RGB, m: nat)
    ensures Agree(p, q, 1, m) <==> SameBucket(p, q, m)
  {
    if Agree(p, q, 1, m) {
      forall k | 0 <= k < m
        ensures Planes(p, m)[k] == Planes(q, m)[k]
      {
        assert ColorIndexForDepth(p, k + 1) == ColorIndexForDepth(q, k + 1);
      }
    }
    if SameBucket(p, q, m) {
      forall k | 1 <= k <= m
        ensures ColorIndexForDepth(p, k) == ColorIndexForDepth(q, k)
      {
        assert Planes(p, m)[k - 1] == Planes(q, m)[k - 1];
      }
    }
  }

  lemma AddOneCard<T>(a: set<T>, x: T)
    ensures |a + {x}| == if x in a then |a| else |a| + 1
  {
    if x in a {
      assert a + {x} == a;
    }
  }

  /** How many of `ps` fall in `q`'s bucket. */
  function Hits(ps: seq<RGB>, q: RGB, m: nat): nat {
    if |ps| == 0 then 0
    else Hits(ps[..|ps| - 1], q, m) + if SameBucket(ps[|ps| - 1], q, m) then 1 else 0
  }

  /** The colour sum of those of `ps` that fall in `q`'s bucket. */
  function HitSum(ps: seq<RGB>, q: RGB, m: nat): RGB {
    if |ps| == 0 then Black
    else
      var s := HitSum(ps[..|ps| - 1], q, m);
      if SameBucket(ps[|ps| - 1], q, m) then Add(s, ps[|ps| - 1]) else s
  }

  /** The distinct buckets of `ps`, each named by its planes 1..m. */
  function Buckets(ps: seq<RGB>, m: nat): set<seq<nat>> {
    if |ps| == 0 then {} else Buckets(ps[..|ps| - 1], m) + {Planes(ps[|ps| - 1], m)}
  }

  lemma {:induction false} BucketsMember(ps: seq<RGB>, m: nat, q: RGB)
    ensures Planes(q, m) in Buckets(ps, m) <==> exists p :: p in ps && SameBucket(p, q, m)
  {
    if |ps| > 0 {
      var front := ps[..|ps| - 1];
      var c := ps[|ps| - 1];
      BucketsMember(front, m, q);
      assert Buckets(ps, m) == Buckets(front, m) + {Planes(c, m)};
      if Planes(q, m) in Buckets(ps, m) {
        if Planes(q, m) in Buckets(front, m) {
          var p :| p in front && SameBucket(p, q, m);
          assert p in ps;
        } else {
          assert c in ps && SameBucket(c, q, m);
        }
      }
      if exists p :: p in ps && SameBucket(p, q, m) {
        var p :| p in ps && SameBucket(p, q, m);
        if p != c {
          assert p in front;
        }
      }
    }
  }

  /** A colour's bucket after inserting `ps` holds the samples it held before
      plus one for each pixel that shares it. */
  lemma {:induction false} InsertAllBucketCount(root: Node, ps: seq<RGB>, q: RGB)
    requires root.depth == 0 && Shaped(root, []) && root.maxDepth >= 1
    ensures BucketCount(InsertAll(root, ps), q) == BucketCount(root, q) + Hits(ps, q, root.maxDepth)
  {
    if |ps| > 0 {
      var front := ps[..|ps| - 1];
      var c := ps[|ps| - 1];
      InsertAllBucketCount(root, front, q);
      InsertAllShaped(root, front);
      var n := InsertAll(root, front);
      RootInsert(n, c);
      InsertBucketCount(n, c, q);
      AgreePlanes(c, q, root.maxDepth);
    }
  }

  /** ... and their colours added to its sum. */
  lemma {:induction false} InsertAllBucketSum(root: Node, ps: seq<RGB>, q: RGB)
    requires root.depth == 0 && Shaped(root, []) && root.maxDepth >= 1
    ensures BucketSum(InsertAll(root, ps), q) == Add(BucketSum(root, q), HitSum(ps, q, root.maxDepth))
  {
    var m := root.maxDepth;
    if |ps| == 0 {
      AddBlack(BucketSum(root, q));
    } else {
      var front := ps[..|ps| - 1];
      var c := ps[|ps| - 1];
      var s0 := BucketSum(root, q);
      InsertAllBucketSum(root, front, q);
      InsertAllShaped(root, front);
      var n := InsertAll(root, front);
      assert InsertAll(root, ps) == CreateChildRecursive(n, c);
      RootInsert(n, c);
      InsertBucketSum(n, c, q);
      AgreePlanes(c, q, m);
      if SameBucket(c, q, m) {
        assert HitSum(ps, q, m) == Add(HitSum(front, q, m), c);
        AddAssoc(s0, HitSum(front, q, m), c);
      } else {
        assert HitSum(ps, q, m) == HitSum(front, q, m);
      }
    }
  }

  /** A colour has a bucket after inserting `ps` exactly when it had one
      before or one of `ps` shares it. */
  lemma {:induction false} InsertAllBucketPresent(root: Node, ps: seq<RGB>, q: RGB)
    requires root.depth == 0 && Shaped(root, []) && root.maxDepth >= 1
    ensures BucketLeaf(InsertAll(root, ps), q).Some?
      <==> BucketLeaf(root, q).Some? || Planes(q, root.maxDepth) in Buckets(ps, root.maxDepth)
  {
    if |ps| > 0 {
      var front := ps[..|ps| - 1];
      var c := ps[|ps| - 1];
      InsertAllBucketPresent(root, front, q);
      InsertAllShaped(root, front);
      var n := InsertAll(root, front);
      RootInsert(n, c);
      InsertBucket(n, c, q);
      AgreePlanes(c, q, root.maxDepth);
    }
  }

  /** Starting from a fresh root, the tree has one leaf per distinct bucket
      of the inserted pixels. */
  lemma {:induction false} LeafPerBucket(m: nat, ps: seq<RGB>)
    requires m >= 1
    ensures |GetLeaves(InsertAll(Fresh(Black, 0, m), ps))| == |Buckets(ps, m)|
  {
    var root := Fresh(Black, 0, m);
    if |ps| == 0 {
      FreshRoot(m, Black);
    } else {
      var front := ps[..|ps| - 1];
      var c := ps[|ps| - 1];
      LeafPerBucket(m, front);
      FreshRoot(m, c);
      InsertAllShaped(root, front);
      var n := InsertAll(root, front);
      assert InsertAll(root, ps) == CreateChildRecursive(n, c);
      RootInsert(n, c);
      InsertLeaves(n, c);
      InsertAllBucketPresent(root, front, c);
      assert Buckets(ps, m) == Buckets(front, m) + {Planes(c, m)};
      AddOneCard(Buckets(front, m), Planes(c, m));
    }
  }

  /** The leaf a pixel lands in after a fresh quantizer has taken `ps`: it
      is one of the leaves, sits at the deepest level, carries the pixel's
      key, and holds exactly the samples of the pixels sharing its bucket. */
  lemma PixelLeaf(m: nat, ps: seq<RGB>, c: RGB)
    requires m >= 1
    requires c in ps
    ensures var n := InsertAll(Fresh(Black, 0, m), ps);
      && BucketLeaf(n, c).Some?
      && BucketLeaf(n, c).value in GetLeaves(n)
      && BucketLeaf(n, c).value.depth == m
      && BucketLeaf(n, c).value.paletteIndex == PaletteIndexFromRGB(c, m)
      && BucketLeaf(n, c).value.refCount == Hits(ps, c, m)
      && BucketLeaf(n, c).value.value == HitSum(ps, c, m)
  {
    var root := Fresh(Black, 0, m);
    FreshRoot(m, c);
    BucketsMember(ps, m, c);
    InsertAllBucketPresent(root, ps, c);
    InsertAllShaped(root, ps);
    var n := InsertAll(root, ps);
    BucketInLeaves(n, c);
    PlanesZero(c);
    BucketKey(n, c);
    InsertAllBucketCount(root, ps, c);
    InsertAllBucketSum(root, ps, c);
    AddBlack(HitSum(ps, c, m));
  }

  // ----- The palette -----

  /** A key no earlier leaf carries is not in the palette of those leaves. */
  lemma KeyNotEarlier(ls: seq<Node>, i: nat)
    requires AllLeaves(ls)
    requires i < |ls|
    requires forall j :: 0 <= j < i ==> ls[j].paletteIndex != ls[i].paletteIndex
    ensures AllLeaves(ls[..i])
    ensures ls[i].paletteIndex !in PaletteOf(ls[..i])
  {
    var front := ls[..i];
    assert forall x :: x in front ==> x in ls;
    forall l | l in front
      ensures l.paletteIndex != ls[i].paletteIndex
    {
      var j :| 0 <= j < i && front[j] == l;
      assert ls[j] == l;
    }
  }

  /** The palette keeps, for each key, the colour of the first leaf carrying it. */
  lemma {:induction false} PaletteFirstWins(ls: seq<Node>, i: nat)
    requires AllLeaves(ls)
    requires i < |ls|
    requires forall j :: 0 <= j < i ==> ls[j].paletteIndex != ls[i].paletteIndex
    ensures ls[i].paletteIndex in PaletteOf(ls)
    ensures PaletteOf(ls)[ls[i].paletteIndex] == LeafColor(ls[i])
  {
    if i == |ls| - 1 {
      KeyNotEarlier(ls, i);
      PaletteGrows(ls);
    } else {
      FrontLeaves(ls, i);
      PaletteFirstWins(ls[..|ls| - 1], i);
      PaletteKeeps(ls, ls[i].paletteIndex);
    }
  }

  /** Dropping the last leaf keeps the earlier ones where they were. */
  lemma FrontLeaves(ls: seq<Node>, i: nat)
    requires AllLeaves(ls)
    requires i < |ls| - 1
    ensures AllLeaves(ls[..|ls| - 1])
    ensures forall j :: 0 <= j <= i ==> ls[..|ls| - 1][j] == ls[j]
  {
    var front := ls[..|ls| - 1];
    assert forall x :: x in front ==> x in ls;
  }

  /** A later leaf leaves an existing palette entry as it is. */
  lemma PaletteKeeps(ls: seq<Node>, k: int)
    requires |ls| > 0
    requires AllLeaves(ls) && AllLeaves(ls[..|ls| - 1])
    requires k in PaletteOf(ls[..|ls| - 1])
    ensures k in PaletteOf(ls) && PaletteOf(ls)[k] == PaletteOf(ls[..|ls| - 1])[k]
  {
    var m := PaletteOf(ls[..|ls| - 1]);
    var l := ls[|ls| - 1];
    assert PaletteOf(ls) == if l.paletteIndex in m then m else m[l.paletteIndex := LeafColor(l)];
  }

  /** Leaves with pairwise distinct keys give one palette entry each. */
  lemma {:induction false} PaletteSize(ls: seq<Node>)
    requires AllLeaves(ls)
    requires DistinctKeys(ls)
    ensures |PaletteOf(ls)| == |ls|
  {
    if |ls| > 0 {
      var i := |ls| - 1;
      KeyNotEarlier(ls, i);
      DistinctFront(ls);
      PaletteSize(ls[..i]);
      PaletteGrows(ls);
    }
  }

  lemma DistinctFront(ls: seq<Node>)
    requires |ls| > 0
    requires DistinctKeys(ls)
    ensures DistinctKeys(ls[..|ls| - 1])
  {
    var front := ls[..|ls| - 1];
    assert forall a :: 0 <= a < |front| ==> front[a] == ls[a];
  }

  /** A leaf with a new key adds one palette entry. */
  lemma PaletteGrows(ls: seq<Node>)
    requires |ls| > 0
    requires AllLeaves(ls) && AllLeaves(ls[..|ls| - 1])
    requires ls[|ls| - 1].paletteIndex !in PaletteOf(ls[..|ls| - 1])
    ensures |PaletteOf(ls)| == |PaletteOf(ls[..|ls| - 1])| + 1
    ensures PaletteOf(ls) == PaletteOf(ls[..|ls| - 1])[ls[|ls| - 1].paletteIndex := LeafColor(ls[|ls| - 1])]
  {
    var m := PaletteOf(ls[..|ls| - 1]);
    var l := ls[|ls| - 1];
    assert PaletteOf(ls) == m[l.paletteIndex := LeafColor(l)];
  }

  /** After a fresh quantizer with keys (depth 1..6) has taken `ps`, every
      pixel's key is in the palette, mapped to the average colour of the
      pixels sharing its bucket. */
  lemma PalettePixel(m: nat, ps: seq<RGB>, c: RGB)
    requires 1 <= m <= 6
    requires c in ps
    ensures var pal := PaletteOf(GetLeaves(InsertAll(Fresh(Black, 0, m), ps)));
      && PaletteIndexFromRGB(c, m) in pal
      && pal[PaletteIndexFromRGB(c, m)] == NormalizeColor(HitSum(ps, c, m), Hits(ps, c, m))
  {
    var root := Fresh(Black, 0, m);
    FreshRoot(m, c);
    InsertAllShaped(root, ps);
    var n := InsertAll(root, ps);
    var ls := GetLeaves(n);
    PixelLeaf(m, ps, c);
    LeafKeysDistinct(n, []);
    var l := BucketLeaf(n, c).value;
    var i :| 0 <= i < |ls| && ls[i] == l;
    PaletteFirstWins(ls, i);
  }

  /** The keys of the pixels of `ps` at depth `m`. */
  function PixelKeys(ps: seq<RGB>, m: nat): set<int> {
    if |ps| == 0 then {} else PixelKeys(ps[..|ps| - 1], m) + {PaletteIndexFromRGB(ps[|ps| - 1], m)}
  }

  /** With keys, two colours share a key exactly when they share a bucket. */
  lemma KeyIsBucket(p: RGB, q: RGB, m: nat)
    requires 1 <= m <= 6
    ensures PaletteIndexFromRGB(p, m) == PaletteIndexFromRGB(q, m) <==> SameBucket(p, q, m)
  {
    PaletteIndexSameBucket(p, q, m);
    AgreePlanes(p, q, m);
  }

  lemma {:induction false} PixelKeysMember(ps: seq<RGB>, m: nat, q: RGB)
    requires 1 <= m <= 6
    ensures PaletteIndexFromRGB(q, m) in PixelKeys(ps, m) <==> Planes(q, m) in Buckets(ps, m)
  {
    if |ps| > 0 {
      PixelKeysMember(ps[..|ps| - 1], m, q);
      KeyIsBucket(ps[|ps| - 1], q, m);
    }
  }

  /** With keys there are as many distinct pixel keys as distinct buckets. */
  lemma {:induction false} KeyPerBucket(ps: seq<RGB>, m: nat)
    requires 1 <= m <= 6
    ensures |PixelKeys(ps, m)| == |Buckets(ps, m)|
  {
    if |ps| > 0 {
      var front := ps[..|ps| - 1];
      var c := ps[|ps| - 1];
      KeyPerBucket(front, m);
      PixelKeysMember(front, m, c);
      var k := PaletteIndexFromRGB(c, m);
      var x := Planes(c, m);
      assert PixelKeys(ps, m) == PixelKeys(front, m) + {k};
      assert Buckets(ps, m) == Buckets(front, m) + {x};
      AddOneCard(PixelKeys(front, m), k);
      AddOneCard(Buckets(front, m), x);
    }
  }

  lemma {:induction false} PixelKeysOf(ps: seq<RGB>, m: nat)
    ensures forall k :: k in PixelKeys(ps, m) <==> exists p :: p in ps && PaletteIndexFromRGB(p, m) == k
  {
    if |ps| > 0 {
      var front := ps[..|ps| - 1];
      PixelKeysOf(front, m);
      assert forall p :: p in ps <==> p in front || p == ps[|ps| - 1];
    }
  }

  /** A subset as large as its superset is the whole superset. */
  lemma SubsetSameSize(a: set<int>, b: set<int>)
    requires a <= b && |a| == |b|
    ensures a == b
  {
    var d := b - a;
    assert b == a + d;
    assert a * d == {};
    assert |b| == |a| + |d|;
    assert d == {};
  }

  /** After a fresh quantizer with keys has taken `ps`, the palette's keys
      are exactly the pixels' keys: no pixel is missing and no entry is
      without a pixel. */
  lemma PaletteDomain(m: nat, ps: seq<RGB>)
    requires 1 <= m <= 6
    ensures PaletteOf(GetLeaves(InsertAll(Fresh(Black, 0, m), ps))).Keys == PixelKeys(ps, m)
    ensures |PaletteOf(GetLeaves(InsertAll(Fresh(Black, 0, m), ps)))| == |Buckets(ps, m)|
  {
    var root := Fresh(Black, 0, m);
    FreshRoot(m, Black);
    InsertAllShaped(root, ps);
    var n := InsertAll(root, ps);
    var ls := GetLeaves(n);
    var pal := PaletteOf(ls);
    LeafKeysDistinct(n, []);
    PaletteSize(ls);
    LeafPerBucket(m, ps);
    KeyPerBucket(ps, m);
    PixelKeysOf(ps, m);
    forall k | k in PixelKeys(ps, m)
      ensures k in pal.Keys
    {
      var p :| p in ps && PaletteIndexFromRGB(p, m) == k;
      PalettePixel(m, ps, p);
    }
    assert |pal.Keys| == |pal|;
    SubsetSameSize(PixelKeys(ps, m), pal.Keys);
  }

  /** At a depth without keys (0 or more than 6) every leaf carries -1, so
      the palette has at most that one entry. */
  lemma PaletteWithoutKeys(m: nat, ps: seq<RGB>)
    requires !(1 <= m <= 6)
    ensures PaletteOf(GetLeaves(InsertAll(Fresh(Black, 0, m), ps))).Keys <= {-1}
  {
    var root := Fresh(Black, 0, m);
    assert Shaped(root, []);
    InsertAllShaped(root, ps);
    var n := InsertAll(root, ps);
    forall l | l in GetLeaves(n)
      ensures l.paletteIndex == -1
    {
      LeafKeys(n, [], l);
    }
  }

  /** The shift count wraps at 32, so plane 32 reads bit 7 again: at
      maxDepth 32, a colour with only red's top bit set and black part at the
      last plane and get leaves of their own. */
  lemma WrappedPlaneSplits()
    ensures ColorIndexForDepth(RGB(128, 0, 0), 32) == 4
    ensures !SameBucket(RGB(128, 0, 0), Black, 32)
    ensures |GetLeaves(InsertAll(Fresh(Black, 0, 32), [RGB(128, 0, 0), Black]))| == 2
  {
    WrappedSelectors();
    var red := RGB(128, 0, 0);
    assert Planes(red, 32)[31] != Planes(Black, 32)[31];
    TwoBuckets(32, red, Black);
    LeafPerBucket(32, [red, Black]);
  }

  lemma WrappedSelectors()
    ensures ColorIndexForDepth(RGB(128, 0, 0), 32) == 4
    ensures ColorIndexForDepth(Black, 32) == 0
  {
    assert Pow2(7) == 128;
  }

  /** Two colours in different buckets make two buckets. */
  lemma TwoBuckets(m: nat, a: RGB, b: RGB)
    requires !SameBucket(a, b, m)
    ensures |Buckets([a, b], m)| == 2
  {
    var ps := [a, b];
    var one := [a];
    assert ps[..1] == one && ps[1] == b && one[..0] == [];
    assert Buckets(one, m) == {Planes(a, m)};
    assert Buckets(ps, m) == Buckets(one, m) + {Planes(b, m)};
    AddOneCard(Buckets(one, m), Planes(b, m));
  }

  /** A quantizer of depth 0 has a root born a leaf, holding one black
      sample; no pixel can reach below it, so its palette is black under
      key -1 whatever it is fed. */
  lemma PaletteAtDepthZero(ps: seq<RGB>)
    ensures InsertAll(Fresh(Black, 0, 0), ps) == Fresh(Black, 0, 0)
    ensures PaletteOf(GetLeaves(InsertAll(Fresh(Black, 0, 0), ps))) == map[-1 := Black]
  {
    var root := Fresh(Black, 0, 0);
    NewQuantizerReachable(0);
    assert NewQuantizer(0).value.root == root;
    InsertAllZero(root, ps);
    assert GetLeaves(root) == [root];
    assert PaletteOf([root]) == PaletteOf([])[-1 := LeafColor(root)];
    NormalizeColorSingle(Black);
  }

  lemma {:induction false} InsertAllZero(root: Node, ps: seq<RGB>)
    requires root.depth == 0 && root.maxDepth == 0 && Shaped(root, [])
    ensures InsertAll(root, ps) == root
  {
    if |ps| > 0 {
      InsertAllZero(root, ps[..|ps| - 1]);
      InsertAtMaxDepth(root, [], ps[|ps| - 1]);
    }
  }

  /** A single pixel of byte colour `c` gives the one-entry palette mapping
      its key to `c` itself. */
  lemma SinglePixelPalette(m: nat, c: RGB)
    requires 1 <= m <= 6
    requires IsByteColor(c)
    ensures PaletteOf(GetLeaves(InsertAll(Fresh(Black, 0, m), [c]))) == map[PaletteIndexFromRGB(c, m) := c]
  {
    var pal := PaletteOf(GetLeaves(InsertAll(Fresh(Black, 0, m), [c])));
    var k := PaletteIndexFromRGB(c, m);
    OnePixel(m, c);
    PaletteDomain(m, [c]);
    PalettePixel(m, [c], c);
    NormalizeColorSingle(c);
    assert pal.Keys == {k} && pal[k] == c;
  }

  lemma OnePixel(m: nat, c: RGB)
    requires IsByteColor(c)
    ensures PixelKeys([c], m) == {PaletteIndexFromRGB(c, m)}
    ensures Hits([c], c, m) == 1
    ensures HitSum([c], c, m) == c
  {
    assert [c][..0] == [];
    assert SameBucket(c, c, m);
    AddBlack(c);
  }

  /** The quantizer end to end: build with depth 1..6, feed an RGBA buffer;
      the palette's keys are exactly the pixels' keys and each pixel's key
      maps to the average colour of the pixels sharing its bucket. */
  lemma QuantizePalette(maxDepth: nat, buf: seq<Byte>)
    requires 1 <= maxDepth <= 6
    requires |buf| % 4 == 0
    ensures var q := NewQuantizer(maxDepth).value;
      var pal := Palette(q.(root := InsertAll(q.root, Pixels(buf))));
      && pal.Keys == PixelKeys(Pixels(buf), maxDepth)
      && forall c :: c in Pixels(buf) ==>
           && PaletteIndexFromRGB(c, maxDepth) in pal
           && pal[PaletteIndexFromRGB(c, maxDepth)]
             == NormalizeColor(HitSum(Pixels(buf), c, maxDepth), Hits(Pixels(buf), c, maxDepth))
  {
    var ps := Pixels(buf);
    assert NewQuantizer(maxDepth).value.root == Fresh(Black, 0, maxDepth);
    PaletteDomain(maxDepth, ps);
    forall c | c in ps
      ensures PaletteIndexFromRGB(c, maxDepth) in PaletteOf(GetLeaves(InsertAll(Fresh(Black, 0, maxDepth), ps)))
      ensures PaletteOf(GetLeaves(InsertAll(Fresh(Black, 0, maxDepth), ps)))[PaletteIndexFromRGB(c, maxDepth)]
        == NormalizeColor(HitSum(ps, c, maxDepth), Hits(ps, c, maxDepth))
    {
      PalettePixel(maxDepth, ps, c);
    }
  }

  /** The same colour inserted twice below a fresh root: one leaf, holding
      two samples and twice the colour. */
  lemma InsertTwice(m: nat, c: RGB)
    requires m >= 1
    ensures var n := InsertAll(Fresh(Black, 0, m), [c, c]);
      && |GetLeaves(n)| == 1
      && BucketLeaf(n, c).Some?
      && BucketLeaf(n, c).value.refCount == 2
      && BucketLeaf(n, c).value.value == RGB(2 * c.r, 2 * c.g, 2 * c.b)
  {
    TwiceBuckets(m, c);
    PixelLeaf(m, [c, c], c);
    LeafPerBucket(m, [c, c]);
  }

  lemma TwiceBuckets(m: nat, c: RGB)
    ensures |Buckets([c, c], m)| == 1
    ensures Hits([c, c], c, m) == 2
    ensures HitSum([c, c], c, m) == RGB(2 * c.r, 2 * c.g, 2 * c.b)
  {
    var ps := [c, c];
    var one := [c];
    assert ps[..1] == one && ps[1] == c && one[..0] == [];
    assert SameBucket(c, c, m);
    assert Buckets(one, m) == {Planes(c, m)};
    assert Buckets(ps, m) == Buckets(one, m) + {Planes(c, m)};
    assert Hits(one, c, m) == 1;
    assert Hits(ps, c, m) == Hits(one, c, m) + 1;
    AddBlack(c);
    assert HitSum(one, c, m) == c;
    assert HitSum(ps, c, m) == Add(HitSum(one, c, m), c);
  }
}

=== FILE: pruning.dfy ===
/** What pruning does to an insert-only tree: only the samples one level
    down move up, so pruning a node on the last internal level (its children
    are leaves) keeps every sample, and pruning higher up loses them. */
module Pruning {
  import opened Color
  import opened Utils
  import opened OctreeNode
  import opened InsertOnly

  /** Every child present is a leaf. */
  predicate ChildrenAreLeaves(n: Node) {
    forall j :: 0 <= j < |n.children| && n.children[j].Some? ==> IsLeaf(n.children[j].value)
  }

  /** No child present carries samples of its own. */
  predicate ChildrenAreEmpty(n: Node) {
    forall j :: 0 <= j < |n.children| && n.children[j].Some? ==>
      n.children[j].value.refCount == 0 && n.children[j].value.value == Black
  }

  /** When every child is a leaf, the children present are exactly the
      leaves below slots 0..k-1. */
  lemma {:induction false} PresentLeafChildren(n: Node, k: nat)
    requires k <= |n.children|
    requires ChildrenAreLeaves(n)
    ensures Present(n.children, k) == LeavesIn(n, 0, k)
  {
    if k > 0 {
      PresentLeafChildren(n, k - 1);
      if n.children[k - 1].Some? {
        assert SlotLeaves(n, k - 1) == [n.children[k - 1].value];
      } else {
        assert SlotLeaves(n, k - 1) == [];
      }
    } else {
      assert LeavesIn(n, 0, k) == [];
    }
  }

  /** The count a node whose children are all leaves gathers from slots
      0..k-1 is the number of samples of its leaves in those slots. */
  lemma TallyCountOfLeafChildren(n: Node, k: nat)
    requires k <= |n.children|
    requires ChildrenAreLeaves(n)
    ensures ChildTally(n.children, k).refs == SampleCount(LeavesIn(n, 0, k))
  {
    TallyIsPresent(n.children, k);
    PresentLeafChildren(n, k);
  }

  /** The colour sum gathered the same way is the sum of those leaves. */
  lemma TallySumOfLeafChildren(n: Node, k: nat)
    requires k <= |n.children|
    requires ChildrenAreLeaves(n)
    ensures ChildTally(n.children, k).sum == SampleSum(LeavesIn(n, 0, k))
  {
    TallyIsPresent(n.children, k);
    PresentLeafChildren(n, k);
  }

  /** The tally of slots 0..k-1 of a node whose children all carry no
      samples is empty. */
  lemma {:induction false} TallyOfEmptyChildren(n: Node, k: nat)
    requires k <= |n.children|
    requires ChildrenAreEmpty(n)
    ensures ChildTally(n.children, k).refs == 0 && ChildTally(n.children, k).sum == Black
  {
    if k > 0 {
      TallyOfEmptyChildren(n, k - 1);
      var t := ChildTally(n.children, k - 1);
      if n.children[k - 1].Some? {
        var c := n.children[k - 1].value;
        assert c.refCount == 0 && c.value == Black;
        assert ChildTally(n.children, k) == Tally(t.refs + c.refCount, Add(t.sum, c.value), t.present + 1);
      }
    }
  }

  /** Pruning an internal node with no samples of its own whose children are
      all leaves turns their samples into its own. */
  lemma PruneLeafChildrenCount(n: Node)
    requires !IsLeaf(n)
    requires ChildrenAreLeaves(n)
    ensures PruneLeaves(n).0.refCount == SampleCount(GetLeaves(n))
  {
    TallyCountOfLeafChildren(n, |n.children|);
    assert GetLeaves(n) == LeavesIn(n, 0, |n.children|);
  }

  lemma PruneLeafChildrenSum(n: Node)
    requires !IsLeaf(n) && n.value == Black
    requires ChildrenAreLeaves(n)
    ensures PruneLeaves(n).0.value == SampleSum(GetLeaves(n))
  {
    TallySumOfLeafChildren(n, |n.children|);
    AddBlack(ChildTally(n.children, |n.children|).sum);
    assert GetLeaves(n) == LeavesIn(n, 0, |n.children|);
  }

  /** Pruning a node whose children carry no samples moves nothing. */
  lemma PruneEmptyChildren(n: Node)
    requires ChildrenAreEmpty(n)
    ensures PruneLeaves(n).0.refCount == n.refCount
    ensures PruneLeaves(n).0.value == n.value
  {
    TallyOfEmptyChildren(n, |n.children|);
    AddBlack(n.value);
  }

  /** Whether pruning keeps the samples below `n`: it does when `n`'s
      children are leaves (or `n` is a leaf itself); above that, in an
      insert-only tree, the children are internal with no samples of their
      own and everything below them is dropped. */
  predicate PruneKeepsSamples(n: Node) {
    n.depth + 1 >= n.maxDepth
  }

  lemma PruneShaped(n: Node, path: seq<nat>)
    requires Shaped(n, path)
    ensures var p := PruneLeaves(n).0;
      && p.refCount == (if PruneKeepsSamples(n) then SampleCount(GetLeaves(n)) else 0)
      && p.value == (if PruneKeepsSamples(n) then SampleSum(GetLeaves(n)) else Black)
      && GetLeaves(p) == (if IsLeaf(p) then [p] else [])
  {
    var p := PruneLeaves(n).0;
    var len := |n.children|;
    if IsLeaf(n) {
      assert n.depth == n.maxDepth;
      assert ChildrenAreEmpty(n);
      PruneEmptyChildren(n);
      SamplesSingle(n);
    } else if PruneKeepsSamples(n) {
      assert ChildrenAreLeaves(n) by {
        forall j | 0 <= j < len && n.children[j].Some?
          ensures IsLeaf(n.children[j].value)
        {
          ShapedChild(n, path, j);
        }
      }
      PruneLeafChildrenCount(n);
      PruneLeafChildrenSum(n);
    } else {
      assert ChildrenAreEmpty(n) by {
        forall j | 0 <= j < len && n.children[j].Some?
          ensures n.children[j].value.refCount == 0 && n.children[j].value.value == Black
        {
          ShapedChild(n, path, j);
        }
      }
      PruneEmptyChildren(n);
    }
    if !IsLeaf(p) {
      assert LeavesIn(p, 0, 0) == [];
    }
  }

  /** Pruning the root of a two-level branch drops the one sample it holds:
      the root's only child is internal and contributes nothing. */
  lemma PruneDropsGrandchildren(c: RGB)
    ensures SampleCount(GetLeaves(Grow(c, 0, 2))) == 1
    ensures PruneLeaves(Grow(c, 0, 2)).0.refCount == 0
    ensures GetLeaves(PruneLeaves(Grow(c, 0, 2)).0) == []
  {
    GrowLeaves(c, 0, 2);
    GrowShaped(c, 0, 2);
    PruneShaped(Grow(c, 0, 2), Planes(c, 0));
  }

  /** Removing a child from a node with no samples of its own leaves the node
      holding what pruning the child gathered. */
  lemma RemoveFromEmpty(n: Node, i: nat)
    requires HasChild(n, i)
    requires n.refCount == 0 && n.value == Black
    ensures Remove(n, i).refCount == PruneLeaves(n.children[i].value).0.refCount
    ensures Remove(n, i).value == PruneLeaves(n.children[i].value).0.value
  {
    AddBlack(PruneLeaves(n.children[i].value).0.value);
  }

  /** Removing the child in slot i of an internal insert-only node leaves the
      node holding exactly the samples pruning the child kept: all of the
      child's samples when its children are leaves, none otherwise. */
  lemma RemoveShapedCount(n: Node, path: seq<nat>, i: nat)
    requires Shaped(n, path)
    requires HasChild(n, i)
    ensures var c := n.children[i].value;
      Remove(n, i).refCount == (if PruneKeepsSamples(c) then SampleCount(GetLeaves(c)) else 0)
  {
    ShapedChild(n, path, i);
    PruneShaped(n.children[i].value, path + [i]);
    RemoveFromEmpty(n, i);
  }

  /** The colour sum that removal leaves in the node, as for the count. */
  lemma RemoveShapedSum(n: Node, path: seq<nat>, i: nat)
    requires Shaped(n, path)
    requires HasChild(n, i)
    ensures var c := n.children[i].value;
      Remove(n, i).value == (if PruneKeepsSamples(c) then SampleSum(GetLeaves(c)) else Black)
  {
    ShapedChild(n, path, i);
    PruneShaped(n.children[i].value, path + [i]);
    RemoveFromEmpty(n, i);
  }
}

=== FILE: utils.dfy ===
/** The bit-plane arithmetic of the quantizer: the 3-bit child selector taken
    from one bit of each channel, the averaging of an accumulated colour, and
    the palette key that packs the selectors of planes 1..depth. */
module Utils {
  import opened Color
  import opened Arith

  function Pow2(k: nat): (p: nat)
    ensures p >= 1
  {
    if k == 0 then 1 else 2 * Pow2(k - 1)
  }

  function Pow8(k: nat): (p: nat)
    ensures p >= 1
  {
    if k == 0 then 1 else 8 * Pow8(k - 1)
  }

  /** Bit `k` of `v`, counting from the least significant bit. */
  function Bit(v: nat, k: nat): nat {
    (v / Pow2(k)) % 2
  }

  /** Whether `v & mask` is non-zero for a mask holding at most one bit. */
  predicate MaskHits(v: nat, mask: nat) {
    mask > 0 && (v / mask) % 2 == 1
  }

  /** The child selector of `value` for `depth`: bit `7 - depth` of the red,
      green and blue channels become bits 2, 1 and 0 of the result.  The mask
      is `0b10000000 >> depth`; a shift takes its count modulo 32, and a count
      above 7 shifts the single bit out, so those depths select slot 0. */
  function ColorIndexForDepth(value: RGB, depth: int): (index: nat)
    ensures index < 8
  {
    var shift := depth % 32;
    var mask := if shift <= 7 then Pow2(7 - shift) else 0;
    (if MaskHits(value.r, mask) then 4 else 0)
    + (if MaskHits(value.g, mask) then 2 else 0)
    + (if MaskHits(value.b, mask) then 1 else 0)
  }

  /** For depths 0..7 the selector's bits 2, 1 and 0 are bit `7 - depth` of
      red, green and blue; the depths a shift count of 8..31 stands for select
      slot 0; and since the count wraps at 32, depth 32 + d reads the same bit
      as depth d. */
  lemma ColorIndexBits(value: RGB, depth: int)
    ensures 0 <= depth <= 7 ==>
      ColorIndexForDepth(value, depth)
        == 4 * Bit(value.r, 7 - depth) + 2 * Bit(value.g, 7 - depth) + Bit(value.b, 7 - depth)
    ensures 8 <= depth % 32 ==> ColorIndexForDepth(value, depth) == 0
    ensures ColorIndexForDepth(value, depth + 32) == ColorIndexForDepth(value, depth)
  {
    assert (depth + 32) % 32 == depth % 32;
  }

  /** The channel `out` is `sum / n` rounded down and capped at 255. */
  predicate FloorCapped(out: nat, sum: nat, n: nat)
    requires n > 0
  {
    && out <= 255
    && (out < 255 ==> out * n <= sum < (out + 1) * n)
    && (out == 255 ==> 255 * n <= sum)
  }

  /** The average of an accumulated colour over `dividedNumber` samples; a
      count of zero divides by one. */
  function NormalizeColor(value: RGB, dividedNumber: nat): (c: RGB)
    ensures IsByteColor(c)
    ensures var n := if dividedNumber == 0 then 1 else dividedNumber;
      FloorCapped(c.r, value.r, n) && FloorCapped(c.g, value.g, n) && FloorCapped(c.b, value.b, n)
  {
    var n := if dividedNumber == 0 then 1 else dividedNumber;
    ChannelFloorCapped(value.r, n);
    ChannelFloorCapped(value.g, n);
    ChannelFloorCapped(value.b, n);
    RGB(Min(value.r / n, 255), Min(value.g / n, 255), Min(value.b / n, 255))
  }

  lemma ChannelFloorCapped(sum: nat, n: nat)
    requires n > 0
    ensures FloorCapped(Min(sum / n, 255), sum, n)
  {
    FloorBounds(sum, n);
    if sum / n >= 255 {
      MulMono(255, sum / n, n);
    }
  }

  function Min(a: nat, b: nat): nat {
    if a <= b then a else b
  }

  /** The child selectors of planes 1..depth; plane k sits at position k - 1. */
  function Planes(value: RGB, depth: nat): (p: seq<nat>)
    ensures |p| == depth
    ensures forall k :: 0 <= k < depth ==> p[k] == ColorIndexForDepth(value, k + 1)
  {
    seq(depth, k requires 0 <= k => ColorIndexForDepth(value, k + 1))
  }

  /** Every entry of `p` is a 3-bit selector. */
  predicate IsSelectorPath(p: seq<nat>) {
    forall k :: 0 <= k < |p| ==> p[k] < 8
  }

  /** The base-8 number whose digit k is `p[k]`; `p[0]` is least significant. */
  function Digits(p: seq<nat>): nat {
    if |p| == 0 then 0 else p[0] + 8 * Digits(p[1..])
  }

  /** The palette key of `value` at `depth`: the selectors of planes depth
      down to 1 concatenated three bits each, plane 1 least significant.
      Only depths 1..6 have a key; every other depth yields -1. */
  function PaletteIndexFromRGB(value: RGB, depth: int): (key: int)
    ensures 1 <= depth <= 6 ==> 0 <= key < Pow8(depth)
    ensures key == -1 <==> !(1 <= depth <= 6)
  {
    if 1 <= depth <= 6 then
      var p := Planes(value, depth);
      DigitsBound(p);
      Digits(p)
    else
      -1
  }

  /** Computes the palette key the way `getPaletteIndexFromRGB` does:
      starting from the deepest plane, each step shifts the key left by three
      bits and ors in the next shallower selector (`(key << 3) | index`, which equals
      `key * 8 + index` because the selector is below 8). */
  method ComputePaletteIndex(value: RGB, depth: int) returns (key: int)
    ensures key == PaletteIndexFromRGB(value, depth)
    ensures 1 <= depth <= 6 ==> key % 8 == ColorIndexForDepth(value, 1)
  {
    if !(1 <= depth <= 6) {
      return -1;
    }
    ghost var p := Planes(value, depth);
    key := 0;
    var k := depth;
    while k >= 1
      invariant 0 <= k <= depth
      invariant key == Digits(p[k..])
    {
      var index := ColorIndexForDepth(value, k);
      assert p[k - 1..][1..] == p[k..];
      key := key * 8 + index;
      k := k - 1;
    }
    assert p[0..] == p;
  }

  /** The reference sum Σ_{k=1..depth} ColorIndexForDepth(value, k) * 8^(k-1). */
  function PlaneSum(value: RGB, depth: nat): nat {
    if depth == 0 then 0
    else PlaneSum(value, depth - 1) + ColorIndexForDepth(value, depth) * Pow8(depth - 1)
  }

  // ----- Digits -----

  lemma {:induction false} DigitsBound(p: seq<nat>)
    requires IsSelectorPath(p)
    ensures Digits(p) < Pow8(|p|)
  {
    if |p| > 0 {
      DigitsBound(p[1..]);
    }
  }

  lemma {:induction false} DigitsAppend(p: seq<nat>, x: nat)
    ensures Digits(p + [x]) == Digits(p) + x * Pow8(|p|)
  {
    if |p| == 0 {
      assert p + [x] == [x];
      assert [x][1..] == [];
    } else {
      assert (p + [x])[1..] == p[1..] + [x];
      DigitsAppend(p[1..], x);
    }
  }

  /** Reading digit `k` back out of the number recovers `p[k]`. */
  lemma {:induction false} DigitsDigitAt(p: seq<nat>, k: nat)
    requires IsSelectorPath(p)
    requires k < |p|
    ensures (Digits(p) / Pow8(k)) % 8 == p[k]
  {
    if k == 0 {
      DigitsMod(p);
    } else {
      DigitsDigitAt(p[1..], k - 1);
      DigitsDiv(p);
      DivDiv(Digits(p), 8, Pow8(k - 1));
    }
  }

  lemma DigitsMod(p: seq<nat>)
    requires IsSelectorPath(p)
    requires |p| > 0
    ensures Digits(p) % 8 == p[0]
  {
  }

  lemma DigitsDiv(p: seq<nat>)
    requires IsSelectorPath(p)
    requires |p| > 0
    ensures Digits(p) / 8 == Digits(p[1..])
  {
  }

  /** Two selector paths of the same length with the same number are equal. */
  lemma {:induction false} DigitsInjective(p: seq<nat>, q: seq<nat>)
    requires IsSelectorPath(p) && IsSelectorPath(q)
    requires |p| == |q|
    requires Digits(p) == Digits(q)
    ensures p == q
  {
    if |p| > 0 {
      DigitsMod(p);
      DigitsMod(q);
      DigitsDiv(p);
      DigitsDiv(q);
      DigitsInjective(p[1..], q[1..]);
      assert p == [p[0]] + p[1..];
      assert q == [q[0]] + q[1..];
    }
  }

  // ----- Planes and palette keys -----

  lemma PlanesAreSelectors(value: RGB, depth: nat)
    ensures IsSelectorPath(Planes(value, depth))
  {
  }

  lemma PlanesExtend(value: RGB, depth: nat)
    ensures Planes(value, depth + 1) == Planes(value, depth) + [ColorIndexForDepth(value, depth + 1)]
  {
  }

  /** Prefix extension: the key at depth + 1 puts the selector of plane
      depth + 1 above the key at depth, so reducing it modulo 8^depth gives
      back the shallower key. */
  lemma PaletteIndexExtend(value: RGB, depth: nat)
    requires 1 <= depth <= 5
    ensures PaletteIndexFromRGB(value, depth + 1)
      == ColorIndexForDepth(value, depth + 1) * Pow8(depth) + PaletteIndexFromRGB(value, depth)
    ensures PaletteIndexFromRGB(value, depth + 1) % Pow8(depth) == PaletteIndexFromRGB(value, depth)
  {
    PlanesExtend(value, depth);
    DigitsAppend(Planes(value, depth), ColorIndexForDepth(value, depth + 1));
    var lo := PaletteIndexFromRGB(value, depth);
    var hi := ColorIndexForDepth(value, depth + 1);
    assert 0 <= lo < Pow8(depth);
    assert (hi * Pow8(depth) + lo) % Pow8(depth) == lo by {
      ModAddMultiple(lo, hi, Pow8(depth));
    }
  }

  lemma ModAddMultiple(lo: nat, hi: nat, m: nat)
    requires 0 <= lo < m
    ensures (hi * m + lo) % m == lo
  {
    DivUnique(hi * m + lo, m, hi, lo);
  }

  /** The key equals the reference sum of the selectors weighted by powers of eight. */
  lemma {:induction false} PaletteIndexIsPlaneSum(value: RGB, depth: nat)
    requires 1 <= depth <= 6
    ensures PaletteIndexFromRGB(value, depth) == PlaneSum(value, depth)
  {
    if depth > 1 {
      PaletteIndexIsPlaneSum(value, depth - 1);
      PaletteIndexExtend(value, depth - 1);
    } else {
      assert Planes(value, 1)[1..] == [];
    }
  }

  /** Digit k - 1 of the key is the selector of plane k: the key determines
      every selector it was built from. */
  lemma PaletteIndexDigit(value: RGB, depth: nat, k: nat)
    requires 1 <= depth <= 6
    requires 1 <= k <= depth
    ensures (PaletteIndexFromRGB(value, depth) / Pow8(k - 1)) % 8 == ColorIndexForDepth(value, k)
  {
    PlanesAreSelectors(value, depth);
    DigitsDigitAt(Planes(value, depth), k - 1);
  }

  /** Two colours share a key at `depth` exactly when they select the same
      child on every plane 1..depth. */
  lemma PaletteIndexSameBucket(c1: RGB, c2: RGB, depth: nat)
    requires 1 <= depth <= 6
    ensures PaletteIndexFromRGB(c1, depth) == PaletteIndexFromRGB(c2, depth)
      <==> forall k :: 1 <= k <= depth ==> ColorIndexForDepth(c1, k) == ColorIndexForDepth(c2, k)
  {
    var p1 := Planes(c1, depth);
    var p2 := Planes(c2, depth);
    if forall k :: 1 <= k <= depth ==> ColorIndexForDepth(c1, k) == ColorIndexForDepth(c2, k) {
      assert p1 == p2;
    }
    if PaletteIndexFromRGB(c1, depth) == PaletteIndexFromRGB(c2, depth) {
      PlanesAreSelectors(c1, depth);
      PlanesAreSelectors(c2, depth);
      DigitsInjective(p1, p2);
      forall k | 1 <= k <= depth
        ensures ColorIndexForDepth(c1, k) == ColorIndexForDepth(c2, k)
      {
        assert p1[k - 1] == p2[k - 1];
      }
    }
  }

  function AllSevens(n: nat): (p: seq<nat>)
    ensures |p| == n
  {
    seq(n, k => 7)
  }

  lemma {:induction false} DigitsAllSevens(n: nat)
    ensures Digits(AllSevens(n)) == Pow8(n) - 1
  {
    if n > 0 {
      assert AllSevens(n)[1..] == AllSevens(n - 1);
      DigitsAllSevens(n - 1);
    }
  }

  /** The all-ones colour has the all-ones key 8^depth - 1 at every depth 1..6. */
  lemma PaletteIndexAllOnes(depth: nat)
    requires 1 <= depth <= 6
    ensures PaletteIndexFromRGB(RGB(255, 255, 255), depth) == Pow8(depth) - 1
  {
    var c := RGB(255, 255, 255);
    forall k | 0 <= k < depth
      ensures Planes(c, depth)[k] == 7
    {
      assert Bit(255, 7 - (k + 1)) == 1 by {
        AllOnesBit(7 - (k + 1));
      }
      ColorIndexBits(c, k + 1);
    }
    assert Planes(c, depth) == AllSevens(depth);
    DigitsAllSevens(depth);
  }

  lemma AllOnesBit(k: nat)
    requires k <= 7
    ensures Bit(255, k) == 1
  {
    assert Pow2(1) == 2 && Pow2(2) == 4 && Pow2(3) == 8 && Pow2(4) == 16;
    assert Pow2(5) == 32 && Pow2(6) == 64 && Pow2(7) == 128;
  }

  /** The selector examples for the lowest plane (depth 7) and for bit 2 (depth 5). */
  lemma ColorIndexExamples()
    ensures ColorIndexForDepth(RGB(1, 0, 0), 7) == 4
    ensures ColorIndexForDepth(RGB(1, 1, 0), 7) == 6
    ensures ColorIndexForDepth(RGB(1, 1, 1), 7) == 7
    ensures ColorIndexForDepth(RGB(4, 0, 0), 5) == 4
    ensures ColorIndexForDepth(RGB(4, 4, 0), 5) == 6
    ensures ColorIndexForDepth(RGB(4, 4, 4), 5) == 7
  {
    assert Pow2(2) == 4;
  }

  /** The selectors of (35, 38, 47) on planes 1..6 are 0, 7, 0, 1, 3, 7. */
  lemma ExampleSelectorsLow()
    ensures ColorIndexForDepth(RGB(35, 38, 47), 1) == 0
    ensures ColorIndexForDepth(RGB(35, 38, 47), 2) == 7
    ensures ColorIndexForDepth(RGB(35, 38, 47), 3) == 0
  {
    assert Pow2(4) == 16 && Pow2(5) == 32 && Pow2(6) == 64;
  }

  lemma ExampleSelectorsHigh()
    ensures ColorIndexForDepth(RGB(35, 38, 47), 4) == 1
    ensures ColorIndexForDepth(RGB(35, 38, 47), 5) == 3
    ensures ColorIndexForDepth(RGB(35, 38, 47), 6) == 7
  {
    assert Pow2(1) == 2 && Pow2(2) == 4 && Pow2(3) == 8;
  }

  /** Keys of (35, 38, 47): at depth 5 the digits 3, 1, 0, 7, 0 (0o31070) and
      at depth 6 the digits 7, 3, 1, 0, 7, 0 (0o731070), plane 1 last. */
  lemma PaletteIndexExample()
    ensures PaletteIndexFromRGB(RGB(35, 38, 47), 5) == 12856
    ensures PaletteIndexFromRGB(RGB(35, 38, 47), 6) == 242232
  {
    var c := RGB(35, 38, 47);
    ExampleSelectorsLow();
    ExampleSelectorsHigh();
    PaletteIndexIsPlaneSum(c, 5);
    PaletteIndexIsPlaneSum(c, 6);
    assert Pow8(3) == 512 && Pow8(4) == 4096 && Pow8(5) == 32768;
    assert PlaneSum(c, 3) == 56;
    assert PlaneSum(c, 4) == 568;
    assert PlaneSum(c, 5) == 12856;
  }

  /** A colour averaged over a count of zero is averaged over one. */
  lemma NormalizeColorZeroCount(value: RGB)
    ensures NormalizeColor(value, 0) == NormalizeColor(value, 1)
  {
  }

  /** A byte colour over a single sample comes back unchanged. */
  lemma NormalizeColorSingle(c: RGB)
    requires IsByteColor(c)
    ensures NormalizeColor(c, 1) == c
  {
  }

  /** N copies of a byte colour accumulated and averaged over N give the colour back. */
  lemma NormalizeColorRepeated(c: RGB, n: nat)
    requires IsByteColor(c)
    requires n >= 1
    ensures NormalizeColor(RGB(c.r * n, c.g * n, c.b * n), n) == c
  {
    MulDiv(c.r, n);
    MulDiv(c.g, n);
    MulDiv(c.b, n);
  }

  lemma MulDiv(a: nat, n: nat)
    requires n >= 1
    ensures (a * n) / n == a
  {
    DivUnique(a * n, n, a, 0);
  }
}

=== FILE: wrappers.dfy ===
/** Failure-carrying results for the operations of the quantizer that throw. */
module Wrappers {

  datatype Option<+T> = None | Some(value: T)

  /** The outcome of an operation that either yields a value or raises an error. */
  datatype Result<+T, +E> = Success(value: T) | Failure(error: E)
}
